=== FILE: README.md ===
# 8-puzzle board and A* solver

A Dafny model of a sliding-tile puzzle engine (the n-by-n generalisation of
the 8-puzzle), in three modules:

- `Grids` (grids.dfy) describes grids as values. It covers the goal
  labelling (row-major 1, 2, … with the blank 0 last), the Hamming and
  Manhattan distances, swapping two cells, the grids one slide away from a
  grid, and the twin swap. It also holds the lemmas about them: Hamming is at
  most Manhattan, both are 0 exactly on the goal, the neighbour count is 2 to
  4, and the twin is a permutation that differs in two adjacent cells.
- `Boards` (board.dfy) is class `Board`. It works on `array2<int>` tile
  arrays: the constructor scans the tiles, and the distances are computed by
  loops. `equals`, `deepCopy` and `switchTiles` are here too. So are the
  memoised neighbour generator (a `seq<Board>` field and a `neighborsGen`
  flag) and the memoised `twin()`, whose swapped array is cached. Each method
  is proved against the `Grids` functions. `Valid()` ties the cached state
  to the board's cells.
- `Solvers` (solver.dfy) holds the search. `SearchNode` is a datatype that
  carries its moves, its predecessor and its two priorities. `compareTo`
  orders nodes by Manhattan priority. Each min-priority queue is a multiset
  with a remove-a-minimum operation. The search runs two A* searches in
  lock-step, one from the initial board and one from its twin, and
  `makeGoal` builds the goal board. Class `Solver` has the constructor and
  the getters `isSolvable`, `moves` and `solution`.

The search is proved to keep every node of the first queue in the search
tree of the initial board, and every node of the twin queue in the tree of
the twin. A node belongs to that tree when its `prev` chain ends at the root
with 0 moves, each step is one legal slide and adds one move. As a result:

- `isSolvable()` holds exactly when the node that stopped the search lies in
  the initial board's tree.
- `solution()` is that node's chain of boards. It is a path of legal slides
  that starts one slide away from the initial board or its twin, and it ends
  on the goal when the goal was popped.
- `moves()` is its length, which is the node's move count.

Behaviour kept from the code where a plain description of the program would
say otherwise:

- The solution leaves out the initial board (Solver.java:137-140).
- `moves()` is the length of the solution also when the board is unsolvable.
  In that case it is the twin's path (Solver.java:142).
- `twin()` swaps cell k with its left or right neighbour without looking at
  where the blank is, so it can move the blank. `Grids.TwinCanMoveBlank`
  shows a 2-by-2 board, [[1, 2], [0, 3]] with k = 2, whose twin is one legal
  slide away: it is the goal. The constructor's contract covers this case:
  a twin that is the goal while the initial board is not stops the search in
  its first round with `isSolvable()` false. So this board, one slide from
  the goal, is reported unsolvable.
- Before popping the twin queue, the emptiness test checks the other queue
  (Solver.java:111-112). The model proves that the queue popped is never
  empty, so this test and the `min = null` branches are dead code.
- The loop condition dereferences `min` before testing it for null
  (Solver.java:70). Because `min` is never null, the order does not matter.
- The goal test is `equals(goal)` against the board built by `makeGoal`.
  It is proved to agree with comparing the cells to the goal grid.
- The Board constructor does not check its input. The model makes a square
  grid that is a permutation of 0..n²-1 a precondition, which excludes inputs
  the source accepts unchecked (Board.java:319 and Board.java:385-391 build
  such boards).

## Model

| member | source | states |
|---|---|---|
| Grids.GoalGrid | Board.java:40-50 | the goal grid is n-by-n and holds i*n+j+1 at (i, j), except 0 at (n-1, n-1) |
| Grids.GoalLabelInjective | Board.java:45-49 | no two cells of the goal grid carry the same label |
| Grids.GoalGridValid | Solver.java:146-154 | the goal grid is a permutation of 0..n²-1, so it is a legal board |
| Grids.GoalCellOfTile | Board.java:133-145 | tile t in 1..n²-1 sits on the goal grid at row (t-1)/n, column (t-1)%n, and the scan finds that cell |
| Grids.CorrectCoordOfLabel | Board.java:133-145 | looking up the goal label of (i, j) yields (i, j) |
| Grids.LabelOfCorrectCoord | Board.java:133-145 | whenever the scan finds a cell, the cell is on the grid and carries the label looked for |
| Grids.RowMismatchesZero | Board.java:97-104 | a row's mismatch count up to column j is 0 iff no non-blank tile in those columns is misplaced |
| Grids.MismatchesZero | Board.java:97-104 | the mismatch count of the first rows is 0 iff no non-blank tile in them is misplaced |
| Grids.HammingZeroIff | Board.java:93-106 | the Hamming distance is 0 iff no non-blank tile is out of place |
| Grids.RowMismatchesBound | Board.java:97-104 | a row prefix has at most j mismatches, and one fewer when it holds the blank |
| Grids.MismatchesBound | Board.java:97-104 | the first rows have at most rows*n mismatches, and one fewer when they hold the blank |
| Grids.HammingBound | Board.java:93-106 | on a permutation board the Hamming distance is at most n²-1 |
| Grids.GoalIffHammingZero | Board.java:58-61 | a permutation board is the goal iff its Hamming distance is 0 |
| Grids.MisplacedCostsAtLeastOne | Board.java:120-126 | a misplaced non-blank tile adds at least 1 to the Manhattan distance |
| Grids.RowHammingAtMostManhattan | Board.java:116-129 | per row prefix, mismatches are at most the Manhattan sum, and one is 0 iff the other is |
| Grids.RowsHammingAtMostManhattan | Board.java:116-129 | the same for the first rows |
| Grids.HammingAtMostManhattan | Board.java:113-131 | hamming <= manhattan, and manhattan is 0 iff hamming is 0 |
| Grids.GoalDistancesZero | Board.java:316-317 | the goal grid has Hamming and Manhattan distance 0 |
| Grids.TileCostBound | Board.java:120-126 | a misplaced tile adds at most 2(n-1) to the Manhattan distance, and a tile in place adds nothing |
| Grids.RowManhattanBound | Board.java:116-129 | per row prefix, the Manhattan sum is at most 2(n-1) times the mismatches |
| Grids.ManhattanRowsBound | Board.java:116-129 | the same for the first rows |
| Grids.ManhattanBound | Board.java:113-131 | the Manhattan distance of a permutation board is at most 2(n-1)(n²-1) |
| Grids.ManhattanFitsInt32 | Board.java:115-125 | for n <= 1024 the Manhattan sum of every permutation board is below 2^31, so the source's int accumulator does not wrap |
| Grids.Swap | Board.java:288-293 | the swapped grid has the same shape, exchanges the two cells and keeps every other cell |
| Grids.SwapInvolution | Board.java:288-293 | swapping the same two cells twice restores the grid |
| Grids.SwapPreservesValid | Board.java:288-293 | swapping two cells of a permutation board gives a permutation board |
| Grids.PushSlideMembers | Board.java:207-213 | one neighbour step adds the slide of cell (i, j) exactly when (i, j) is on the grid, and keeps what was already there |
| Grids.NeighborCount | Board.java:204-235 | 2 neighbours at a corner, 3 on an edge, 4 inside (for n >= 2) |
| Grids.NeighborIsSlide | Board.java:204-235 | every generated neighbour is the grid with the blank and an adjacent tile swapped |
| Grids.SlideIsNeighbor | Board.java:204-235 | every slide of an adjacent on-grid tile into the blank is generated |
| Grids.SlideIsGenerated | Board.java:204-235 | any legal slide of a permutation board moves a tile into its one blank, so it is among the generated neighbours |
| Grids.NeighborsAreSlides | Board.java:204-235 | a grid is a generated neighbour iff it is one legal slide away |
| Grids.NeighborsValid | Board.java:204-235 | the neighbours of a permutation board are permutation boards |
| Grids.TwinCellsInGrid | Board.java:268-285 | for 0 <= k <= n²-2, cell k and the cell it is swapped with are on the grid and horizontally adjacent |
| Grids.TwinDiffersInTwoAdjacentCells | Board.java:265-286 | the twin exchanges the tiles of those two cells, differs from the board there and nowhere else, and is a permutation board |
| Grids.TwinValid | Board.java:252 | the twin of a permutation board is a permutation board |
| Grids.TwinCanMoveBlank | Board.java:268-285 | there is a board ([[1, 2], [0, 3]], k = 2) whose twin moves the blank: the twin is the goal and one legal slide away |
| Boards.SameBoardIsEquivalence | Board.java:158-177 | the relation equals() decides (same dimension, same cells) is reflexive, symmetric and transitive; this follows directly from its definition |
| Boards.SwitchTiles | Board.java:288-293 | the array afterwards is the swap of the two cells of the array before |
| Boards.GetHamming | Board.java:93-106 | the loop counts exactly the non-blank cells of a that differ from b |
| Boards.Board.constructor | Board.java:30-68 | the board holds a copy of the tiles, is well formed (blank located, goal flag, both distances cached) and has empty caches |
| Boards.Board.ScanTiles | Board.java:40-63 | the nested scan copies the tiles, builds the goal grid, finds the blank, and sets the goal flag iff every cell equals its goal label |
| Boards.Board.Create | Board.java:31-33 | a null array is rejected; otherwise the board is built from its contents |
| Boards.Board.Dimension | Board.java:89-91 | the dimension is the side of the board's square grid |
| Boards.Board.Hamming | Board.java:109-111 | the cached value is the Hamming distance, is at most n²-1, and is 0 iff the board is the goal |
| Boards.Board.Manhattan | Board.java:148-150 | the cached value is the Manhattan distance, is at least the Hamming distance, and is 0 iff the board is the goal |
| Boards.Board.IsGoal | Board.java:153-155 | true iff the cells are the goal grid, iff the Hamming distance is 0 |
| Boards.Board.GetCorrectCoord | Board.java:133-145 | the scan returns the goal cell of the tile, or (-1, -1) when no cell carries it |
| Boards.Board.GetManhattan | Board.java:113-131 | the loop sums the row and column distances of the misplaced non-blank tiles |
| Boards.Board.Equals | Board.java:158-177 | true iff y is a Board with the same dimension and the same cells; false for null and for other classes |
| Boards.Board.DeepCopy | Board.java:237-245 | a fresh n-by-n array holding the board's cells |
| Boards.Board.Neighbors | Board.java:180-186 | the neighbours are the one-slide grids; the first call generates them, and later calls return the cached sequence unchanged |
| Boards.Board.GenerateNeighborBoards | Board.java:204-235 | pushes one fresh board with empty caches for each on-grid cell above, below, left and right of the blank, in that order; the sequence is the stack, top first |
| Boards.Board.PushNeighbor | Board.java:207-213 | one branch: when the cell is on the grid, a board with it slid into the blank is pushed, and the stack is kept |
| Boards.Board.SlideBoard | Board.java:208-212 | a fresh board whose cells are this board's with the tile and the blank exchanged |
| Boards.Board.Twin | Board.java:248-259 | the first call fixes k and caches the swapped array; every call returns a fresh board holding the twin grid of the cached k |
| Boards.Board.MakeTwin | Board.java:265-286 | the array afterwards is the twin grid of the array before, for cell k |
| Solvers.NewNode | Solver.java:24-31 | the priorities are hamming + moves and manhattan + moves, moves <= hamming priority <= manhattan priority, and the Manhattan priority equals moves iff the board is the goal |
| Solvers.CompareTo | Solver.java:33-44 | -1, 0 or 1, negative iff the first Manhattan priority is smaller, positive iff it is larger |
| Solvers.CompareToIsTotalPreorder | Solver.java:33-44 | compareTo is antisymmetric in sign, transitive, total and reflexive |
| Solvers.MinExists | Solver.java:104 | every non-empty queue has a node that compares at most equal to all its nodes |
| Solvers.DelMin | Solver.java:104 | the node removed is a minimum, and the queue afterwards is the queue before less exactly that node |
| Solvers.DescendsFromOneRoot | Solver.java:123-128 | a node lies in the search tree of one root only, so the queue it came from decides solvability |
| Solvers.ChainIsPath | Solver.java:135-142 | the prev chain without the root has as many boards as the node has moves, each one slide from the one before, starting next to the root and ending on the node's board |
| Solvers.ChaseSolution | Solver.java:135-140 | chasing prev and pushing onto the stack gives the chain of the node, ordered from the root's child to the node |
| Solvers.ChildDescends | Solver.java:79 | a node made from a neighbour with moves + 1 and prev = min is in min's tree |
| Solvers.ExpandBoard | Solver.java:77 | the result is the board's neighbour sequence (the cached one when it was already generated), whose grids are exactly the one-slide grids of the board; each is a legal slide on the same dimension, and there are at least two |
| Solvers.NeighborsAreSlidesOf | Solver.java:77 | each neighbour board has the same dimension and is one legal slide from the expanded board, and there are at least two for n >= 2 |
| Solvers.ExpandNode | Solver.java:77-79 | the neighbours of min's board are its neighbour sequence, at least two well-formed boards, and the node made from each (moves + 1, prev = min) lies in min's tree |
| Solvers.InsertNeighbors | Solver.java:77-92 | the queue min came from gains exactly the children of min, one node per neighbour; the other queue is unchanged |
| Solvers.ExpandMin | Solver.java:77-92 | the expanded queue is the old queue plus exactly the children of min and the other queue is unchanged; both queues hold only nodes of their own root's tree |
| Solvers.Children | Solver.java:77-79 | the nodes one expansion adds: exactly one per neighbour |
| Solvers.ChildNodesAt | Solver.java:77-79 | the i-th child is the new node of the i-th neighbour, with moves + 1 and prev = min |
| Solvers.ChildrenAreNewNodes | Solver.java:77-79 | every child is the new node of one of the neighbours, with moves + 1, prev = min and the priorities a new node gets |
| Solvers.EveryNeighborQueued | Solver.java:77-85 | every neighbour's node, with moves + 1 and prev = min, is among the children |
| Solvers.ChildrenInTree | Solver.java:77-79 | the children of a node of root's tree lie in that tree, on boards already reached |
| Solvers.Round | Solver.java:70-117 | one round: the queue min came from gains exactly the children of min's neighbours (which are well formed), alternate switches, and a minimum of the other queue is removed from it and returned, reached iff its board is the goal; both queues stay in their own root's trees |
| Solvers.SwitchAndPop | Solver.java:94-117 | alternate flips, and a minimum of the queue it now names is removed, which is never empty; the other queue is unchanged |
| Solvers.PopNext | Solver.java:94-117 | the popped node is a minimum of the queue named by the new alternate, that queue afterwards is the queue before less exactly that node, the node is in its root's tree, and reached holds iff its board is the goal |
| Solvers.TracedRound | Solver.java:70-117 | a Round after a pop that was not the goal: the popped node is appended to the alternating pops, and both queues stay in their own root's trees |
| Solvers.PoppedExtend | Solver.java:94-117 | after a pop that was not the goal, a node of the tree whose turn it is extends the alternating pops |
| Solvers.TraceExtend | Solver.java:94-117 | the same with alternate: switching it and popping from the other tree keeps alternate naming the tree of the last pop |
| Solvers.PoppedGoalCases | Solver.java:66-70 | an initial board that is the goal is the first and only pop; a twin that is the goal, the initial board not, is the second and last pop when there is fuel for one round |
| Solvers.Start | Solver.java:57-70 | both queues start with a root node with 0 moves and no prev; the initial node is popped at once, and reached iff the initial board is the goal |
| Solvers.TwinOf | Solver.java:61 | the twin is a fresh board of the same size whose cells are the twin grid of the initial board |
| Solvers.MakeGoal | Solver.java:145-157 | a fresh board of the given size whose cells are the goal grid |
| Solvers.Search | Solver.java:56-118 | the nodes popped alternate between the initial board's tree (first, from its root) and the twin's (second, from its root); the search stops at the first of them on the goal, and stops without the goal only after fuel rounds; the stopping node lies in the initial board's tree when alternate is 0 and in the twin's otherwise; an initial board that is the goal stops the search at once with alternate 0 on the root node; a twin that is the goal, the initial board not, stops it in the first round with alternate 1 on the twin's root node |
| Solvers.Explore | Solver.java:68-118 | the loop, from the state after the first pop: the pops alternate between the two trees, none before the last is on the goal, reached iff the last is, and the goal is missed only after exactly fuel rounds |
| Solvers.SolveBoth | Solver.java:54-118 | builds the goal and the twin, then runs the search; the outcome, including the alternating pops that stop at the first goal and both goal cases, holds as for Search |
| Solvers.Solver.constructor | Solver.java:48-143 | solvable iff the final node is in the initial board's tree; the solution is a slide path from the winning root that ends on the goal when reached; moves is its length; an initial board that is the goal gives solvable, an empty solution and 0 moves; a twin that is the goal, the initial board not, gives not solvable and an empty solution; the initial board stays well formed; the final node is the first goal among the alternating pops, and solvable holds iff the initial board's search popped it; the goal is missed only after fuel rounds |
| Solvers.Solver.IsSolvable | Solver.java:160-162 | true iff the final node descends from the initial board, iff the initial board's search made the last pop; otherwise the node descends from the twin |
| Solvers.Solver.Moves | Solver.java:165-167 | the length of the solution, equal to the final node's moves |
| Solvers.Solver.Solution | Solver.java:170-172 | a path of legal slides from the winning root that ends on the goal when the search reached it |
| Solvers.Solver.Create | Solver.java:49-51 | a null initial board is rejected; otherwise a fresh solver is built with all the constructor's guarantees: the initial board kept and well formed, the twin's k, moves equal to the final node's moves, the slide path and its goal end, the first-goal stopping rule with the fuel bound, and both goal cases |

## Left out

- Printing, `toString` and both `main` methods (Board.java:71-86, 384-395; Solver.java:174-196) are I/O and are not modelled. Reading the puzzle file with `In` is left out for the same reason.
- `StdRandom.uniform` (Board.java:268) is replaced by a parameter k with 0 <= k <= n²-2. Which value the random draw picks is left open.
- The algs4 `MinPQ` and `Stack` are library code. A queue is a multiset with removal of a minimum; among equal priorities the node removed is left open, as the binary heap leaves it. The solution stack is a sequence.
- The search loop is bounded by a `fuel` parameter. `completed` records whether the goal was popped before the fuel ran out. The source's loop stops only when one of the two searches pops the goal, so it runs forever when neither board can reach it. That happens when the twin swap moves the blank of an unsolvable board: [[2, 1], [3, 0]] with k = 2 has the twin [[2, 1], [0, 3]], one slide away and just as unsolvable. Termination and the parity theorem are not claimed.
- `pq` and `pqTwin` are fields in the source but locals passed between the search methods here. Nothing outside the constructor reads them.
- `Boards.Board.Twin` and the solver require n >= 2, because `twin()` draws from an empty range for n = 1. Boards of size 1 themselves are modelled.
- The Board constructor, `Boards.Board.Create`: an array that is not square or not a permutation of 0..n²-1, and the 0-by-0 array, are excluded by a precondition. The source accepts them without checking; for `new int[0][0]` it builds a board of dimension 0 that is its own goal, with both distances 0 and no neighbours.
- Boards.Board.GetManhattan, Boards.Board.Manhattan: the sum is an unbounded integer here, while the source accumulates it in a 32-bit `int` (Board.java:115-125). `Grids.ManhattanFitsInt32` shows that no permutation board of size n <= 1024 reaches 2^31. Larger boards can wrap: the goal rotated by 180 degrees has a Manhattan sum above 2^31 - 1 from n = 1291 on, where the source's value wraps; for 1291 <= n <= 1625 it turns negative and drops below the Hamming distance. The Manhattan priorities of `Solvers.NewNode` inherit this.
- The commented-out `NeighborIterator` (Board.java:188-202) and the assertions in `testAll` (Board.java:298-381) are not modelled. Several of those assertions expect values that the code does not compute.
- Solvers.Solver.Solution: states the path and its goal end, but not that the path is shortest. Optimality of the solution is out of scope and is not proved.

=== FILE: board.dfy ===
/**
  The Board class: an n-by-n sliding-puzzle board that copies its tiles on
  construction, caches its Hamming and Manhattan distances, and memoises its
  neighbour boards and the tiles of its twin.
 */
module Boards {
  import opened Grids

  datatype Option<T> = None | Some(value: T)

  /** The rows of a two-dimensional array, as a grid. */
  ghost function Contents(a: array2<int>): (g: Grid)
    reads a
    ensures |g| == a.Length0
    ensures forall i :: 0 <= i < a.Length0 ==> |g[i]| == a.Length1
    ensures forall i, j :: 0 <= i < a.Length0 && 0 <= j < a.Length1 ==> g[i][j] == a[i, j]
  {
    FirstRows(a, a.Length0)
  }

  /** Rows 0..k-1 of a, built one row at a time. */
  ghost function FirstRows(a: array2<int>, k: nat): (g: Grid)
    requires k <= a.Length0
    reads a
    ensures |g| == k
    ensures forall i :: 0 <= i < k ==> |g[i]| == a.Length1
    ensures forall i, j :: 0 <= i < k && 0 <= j < a.Length1 ==> g[i][j] == a[i, j]
  {
    if k == 0 then []
    else FirstRows(a, k - 1) + [seq(a.Length1, j requires 0 <= j < a.Length1 reads a => a[k - 1, j])]
  }

  /** The tiles of each board of a list. */
  function CellsOf(bs: seq<Board>): (gs: seq<Grid>)
    ensures |gs| == |bs| && forall m :: 0 <= m < |bs| ==> gs[m] == bs[m].cells
  {
    if bs == [] then [] else [bs[0].cells] + CellsOf(bs[1..])
  }

  /** Board equality as equals() decides it: same dimension and the same tile in every cell. */
  predicate SameBoard(a: Board, b: Board) {
    a.n == b.n && a.cells == b.cells
  }

  /** SameBoard is an equivalence relation. */
  lemma SameBoardIsEquivalence(a: Board, b: Board, c: Board)
    ensures SameBoard(a, a)
    ensures SameBoard(a, b) ==> SameBoard(b, a)
    ensures SameBoard(a, b) && SameBoard(b, c) ==> SameBoard(a, c)
  {
  }

  /** Exchanges b[i, j] and b[oldi, oldj] in place. */
  method SwitchTiles(i: int, j: int, oldi: int, oldj: int, b: array2<int>)
    requires 0 <= i < b.Length0 && 0 <= j < b.Length1
    requires 0 <= oldi < b.Length0 && 0 <= oldj < b.Length1
    modifies b
    ensures Contents(b) == Swap(old(Contents(b)), i, j, oldi, oldj)
  {
    ghost var before := Contents(b);
    var temp := b[i, j];
    b[i, j] := b[oldi, oldj];
    b[oldi, oldj] := temp;
    ghost var after := Contents(b);
    ghost var swapped := Swap(before, i, j, oldi, oldj);
    forall r | 0 <= r < b.Length0
      ensures after[r] == swapped[r]
    {
    }
  }

  /**
    Counts the cells (i, j), i, j < size, where a holds a non-blank tile that
    differs from b's.
   */
  method GetHamming(a: Grid, b: Grid, size: int) returns (distance: int)
    requires 0 <= size <= |a| && size <= |b|
    requires forall i :: 0 <= i < size ==> size <= |a[i]| && size <= |b[i]|
    ensures distance == Mismatches(a, b, size, size)
  {
    distance := 0;
    for i := 0 to size
      invariant distance == Mismatches(a, b, i, size)
    {
      for j := 0 to size
        invariant distance == Mismatches(a, b, i, size) + RowMismatches(a, b, i, j)
      {
        if a[i][j] != b[i][j] && a[i][j] != 0 {
          distance := distance + 1;
        }
      }
    }
  }

  class Board {
    const n: nat
    /** The board's own copy of the tiles. */
    const cells: Grid
    const groundTruth: Grid
    const blankRow: int
    const blankCol: int
    const isGoal: bool
    const hammingDistance: int
    const manhattanDistance: int

    /** Cached neighbour boards, most recently pushed first. */
    var neighbors: seq<Board>
    var neighborsGen: bool
    /** Cached tiles of the twin, null until twin() is first called. */
    var twinTiles: array2?<int>
    /** Index of the cell the cached twin exchanged. */
    ghost var twinIndex: int

    /** The board itself and, once the twin has been made, the cached twin tiles. */
    ghost var Repr: set<object>

    /** What the constructor establishes about the tiles and the cached values. */
    ghost predicate WellFormed() {
      && DistinctTiles(cells, n)
      && groundTruth == GoalGrid(n)
      && InGrid(n, blankRow, blankCol) && cells[blankRow][blankCol] == 0
      && (isGoal <==> cells == GoalGrid(n))
      && hammingDistance == HammingOf(cells, n)
      && manhattanDistance == ManhattanOf(cells, n)
    }

    /** A board as the constructor leaves it: neither cache filled. */
    ghost predicate Unused()
      reads this
    {
      Repr == {this} && twinTiles == null && !neighborsGen && neighbors == []
    }

    ghost predicate Valid()
      reads this, Repr
    {
      && this in Repr
      && (twinTiles != null ==> twinTiles in Repr)
      && WellFormed()
      && TwinCacheOk()
      && NeighborCacheOk()
    }

    /** The cached twin tiles, once computed, are the twin of the board's tiles. */
    ghost predicate TwinCacheOk()
      requires WellFormed()
      reads this`twinTiles, this`twinIndex, this`Repr, twinTiles
    {
      if twinTiles == null then Repr == {this}
      else
        && Repr == {this, twinTiles}
        && n >= 2 && 0 <= twinIndex <= n * n - 2
        && twinTiles.Length0 == n && twinTiles.Length1 == n
        && Contents(twinTiles) == TwinGrid(cells, n, twinIndex)
    }

    /** The cached neighbours, once generated, are well-formed boards over exactly the slides of this board. */
    ghost predicate NeighborCacheOk()
      requires WellFormed()
      reads this`neighbors, this`neighborsGen
    {
      && (!neighborsGen ==> neighbors == [])
      && (neighborsGen ==> CellsOf(neighbors) == NeighborGrids(cells, n, blankRow, blankCol))
      && (forall c :: c in neighbors ==> c.WellFormed())
    }

    constructor (tiles: array2<int>)
      requires ValidGrid(Contents(tiles), tiles.Length0)
      ensures Valid() && WellFormed() && Unused()
      ensures n == tiles.Length0 && cells == Contents(tiles)
    {
      var rows, truth, ei, ej, goal := ScanTiles(tiles);
      var hamming := GetHamming(rows, truth, tiles.Length0);
      var manhattan := GetManhattan(rows, truth, tiles.Length0);
      n := tiles.Length0;
      cells := rows;
      groundTruth := truth;
      blankRow, blankCol := ei, ej;
      isGoal := goal;
      neighbors := [];
      neighborsGen := false;
      twinTiles := null;
      hammingDistance := hamming;
      manhattanDistance := manhattan;
      Repr := {this};
    }

    /**
      The constructor's scan of the tiles: copies them row by row, lays out the
      goal labels with a running counter (the last cell gets 0), records the
      blank and whether every tile is on its goal cell.
     */
    static method ScanTiles(tiles: array2<int>) returns (rows: Grid, truth: Grid, ei: int, ej: int, goal: bool)
      requires ValidGrid(Contents(tiles), tiles.Length0)
      ensures rows == Contents(tiles) && truth == GoalGrid(tiles.Length0)
      ensures InGrid(tiles.Length0, ei, ej) && rows[ei][ej] == 0
      ensures goal <==> rows == truth
    {
      var size := tiles.Length0;
      ghost var input := Contents(tiles);
      ghost var goalGrid := GoalGrid(size);
      rows, truth := [], [];
      var gt := 1;
      ei, ej := 0, 0;
      ghost var found := false;
      goal := true;
      for i := 0 to size
        invariant |rows| == i && |truth| == i
        invariant forall r :: 0 <= r < i ==> rows[r] == input[r] && truth[r] == goalGrid[r]
        invariant i < size ==> gt == i * size + 1
        invariant goal <==> forall r, c :: 0 <= r < i && 0 <= c < size ==> input[r][c] == goalGrid[r][c]
        invariant found ==> InGrid(size, ei, ej) && input[ei][ej] == 0
        invariant !found ==> forall r, c :: 0 <= r < i && 0 <= c < size ==> input[r][c] != 0
      {
        var row: seq<int> := [];
        var truthRow: seq<int> := [];
        for j := 0 to size
          invariant |row| == j && |truthRow| == j
          invariant forall c :: 0 <= c < j ==> row[c] == input[i][c] && truthRow[c] == goalGrid[i][c]
          invariant !(i == size - 1 && j == size) ==> gt == i * size + j + 1
          invariant goal <==>
                      (forall r, c :: 0 <= r < i && 0 <= c < size ==> input[r][c] == goalGrid[r][c]) &&
                      (forall c :: 0 <= c < j ==> input[i][c] == goalGrid[i][c])
          invariant found ==> InGrid(size, ei, ej) && input[ei][ej] == 0
          invariant !found ==>
                      (forall r, c :: 0 <= r < i && 0 <= c < size ==> input[r][c] != 0) &&
                      (forall c :: 0 <= c < j ==> input[i][c] != 0)
        {
          row := row + [tiles[i, j]];
          if i == size - 1 && j == size - 1 {
            truthRow := truthRow + [0];
          } else {
            truthRow := truthRow + [gt];
            gt := gt + 1;
          }
          if tiles[i, j] == 0 {
            ei, ej := i, j;
            found := true;
          }
          if tiles[i, j] != truthRow[j] {
            goal := false;
          }
        }
        assert row == input[i];
        assert truthRow == goalGrid[i];
        if i < size - 1 {
          assert (i + 1) * size == i * size + size;
        }
        rows := rows + [row];
        truth := truth + [truthRow];
      }
      assert rows == input;
      assert truth == goalGrid;
      if goal {
        forall r | 0 <= r < size
          ensures input[r] == goalGrid[r]
        {
        }
      } else {
        ghost var r, c :| 0 <= r < size && 0 <= c < size && input[r][c] != goalGrid[r][c];
        assert rows[r][c] != truth[r][c];
      }
    }
    /** Builds a board from tiles that may be null; null is rejected. */
    static method Create(tiles: array2?<int>) returns (r: Option<Board>)
      requires tiles != null ==> ValidGrid(Contents(tiles), tiles.Length0)
      ensures r.None? <==> tiles == null
      ensures r.Some? ==> fresh(r.value) && r.value.Valid() && r.value.Repr == {r.value}
      ensures r.Some? ==> r.value.n == tiles.Length0 && r.value.cells == Contents(tiles)
    {
      if tiles == null {
        return None;
      }
      var b := new Board(tiles);
      return Some(b);
    }

    function Dimension(): (d: nat)
      requires WellFormed()
      ensures d >= 1 && IsSquare(cells, d)
    {
      n
    }

    /** Number of tiles out of place: at most n*n-1, and 0 exactly on the goal board. */
    function Hamming(): (h: int)
      requires WellFormed()
      ensures h == HammingOf(cells, n)
      ensures 0 <= h <= n * n - 1
      ensures h == 0 <==> cells == GoalGrid(n)
    {
      HammingBound(cells, n);
      GoalIffHammingZero(cells, n);
      hammingDistance
    }

    /** Sum of the tiles' distances to their goal cells: never below hamming(), 0 exactly when hamming() is. */
    function Manhattan(): (m: int)
      requires WellFormed()
      ensures m == ManhattanOf(cells, n)
      ensures m >= HammingOf(cells, n)
      ensures m == 0 <==> cells == GoalGrid(n)
    {
      HammingAtMostManhattan(cells, n);
      GoalIffHammingZero(cells, n);
      manhattanDistance
    }

    function IsGoal(): (r: bool)
      requires WellFormed()
      ensures r <==> cells == GoalGrid(n)
      ensures r <==> HammingOf(cells, n) == 0
    {
      GoalIffHammingZero(cells, n);
      isGoal
    }

    /** Cell holding tile on the goal board, (-1, -1) when no cell holds it. */
    static method GetCorrectCoord(groundTruth: Grid, n: nat, tile: int) returns (ti: int, tj: int)
      requires groundTruth == GoalGrid(n)
      ensures (ti, tj) == CorrectCoord(n, tile)
    {
      for i := 0 to n
        invariant forall r, c :: 0 <= r < i && 0 <= c < n ==> GoalLabel(n, r, c) != tile
      {
        for j := 0 to n
          invariant forall c :: 0 <= c < j ==> GoalLabel(n, i, c) != tile
        {
          if groundTruth[i][j] == tile {
            CorrectCoordOfLabel(n, i, j);
            return i, j;
          }
        }
      }
      LabelOfCorrectCoord(n, tile);
      return -1, -1;
    }

    static method GetManhattan(cells: Grid, groundTruth: Grid, n: nat) returns (distance: int)
      requires IsSquare(cells, n) && groundTruth == GoalGrid(n)
      ensures distance == ManhattanOf(cells, n)
    {
      distance := 0;
      for i := 0 to n
        invariant distance == ManhattanRows(cells, n, i)
      {
        for j := 0 to n
          invariant distance == ManhattanRows(cells, n, i) + RowManhattan(cells, n, i, j)
        {
          var tile := cells[i][j];
          if tile != 0 {
            if tile != groundTruth[i][j] {
              var ci, cj := GetCorrectCoord(groundTruth, n, tile);
              distance := distance + (Abs(i - ci) + Abs(j - cj));
            }
          }
        }
      }
    }

    /** equals(): false for null, for an object of another class and for another dimension; else cell by cell. */
    method Equals(y: object?) returns (r: bool)
      requires WellFormed()
      requires y is Board ==> (y as Board).WellFormed()
      ensures r <==> y is Board && SameBoard(this, y as Board)
    {
      if y == null || !(y is Board) {
        return false;
      }
      var yb := y as Board;
      if yb.Dimension() != n {
        return false;
      }
      for i := 0 to n
        invariant forall r :: 0 <= r < i ==> yb.cells[r] == cells[r]
      {
        for j := 0 to n
          invariant forall c :: 0 <= c < j ==> yb.cells[i][c] == cells[i][c]
        {
          if yb.cells[i][j] != cells[i][j] {
            return false;
          }
        }
        assert yb.cells[i] == cells[i];
      }
      assert yb.cells == cells;
      return true;
    }

    /** A fresh array holding a copy of the tiles. */
    method DeepCopy() returns (c: array2<int>)
      requires WellFormed()
      ensures fresh(c) && c.Length0 == n && c.Length1 == n
      ensures Contents(c) == cells
    {
      c := new int[n, n];
      for i := 0 to n
        invariant forall r, s :: 0 <= r < i && 0 <= s < n ==> c[r, s] == cells[r][s]
      {
        for j := 0 to n
          invariant forall r, s :: 0 <= r < i && 0 <= s < n ==> c[r, s] == cells[r][s]
          invariant forall s :: 0 <= s < j ==> c[i, s] == cells[i][s]
        {
          c[i, j] := cells[i][j];
        }
      }
      ghost var g := Contents(c);
      forall r | 0 <= r < n
        ensures g[r] == cells[r]
      {
      }
    }

    /**
      neighbors(): generates the neighbour boards on the first call and returns
      the cached ones afterwards. They are exactly the boards obtained by sliding
      one tile next to the blank into it, in the order the stack yields them.
     */
    method Neighbors() returns (r: seq<Board>)
      requires Valid()
      modifies this
      ensures Valid() && Repr == old(Repr)
      ensures neighborsGen && r == neighbors
      ensures old(neighborsGen) ==> r == old(neighbors)
      ensures CellsOf(r) == NeighborGrids(cells, n, blankRow, blankCol)
      ensures forall c :: c in r ==> c.WellFormed()
      ensures !old(neighborsGen) ==> forall c :: c in r ==> fresh(c) && c.WellFormed() && c.Unused()
      ensures twinTiles == old(twinTiles) && twinIndex == old(twinIndex)
    {
      if !neighborsGen {
        GenerateNeighborBoards();
        neighborsGen := true;
      }
      r := neighbors;
    }

    /** Pushes the boards for moving the blank up, down, left and right, where the grid allows. */
    method GenerateNeighborBoards()
      requires WellFormed() && neighbors == []
      modifies this
      ensures CellsOf(neighbors) == NeighborGrids(cells, n, blankRow, blankCol)
      ensures forall c :: c in neighbors ==> fresh(c) && c.WellFormed() && c.Unused()
      ensures neighborsGen == old(neighborsGen) && twinTiles == old(twinTiles) && twinIndex == old(twinIndex)
      ensures Repr == old(Repr)
    {
      ghost var up := PushSlide(cells, n, blankRow, blankCol, blankRow - 1, blankCol, []);
      ghost var down := PushSlide(cells, n, blankRow, blankCol, blankRow + 1, blankCol, up);
      ghost var left := PushSlide(cells, n, blankRow, blankCol, blankRow, blankCol - 1, down);
      var stack := PushNeighbor(blankRow - 1, blankCol, [], []);
      stack := PushNeighbor(blankRow + 1, blankCol, stack, up);
      stack := PushNeighbor(blankRow, blankCol - 1, stack, down);
      var right := PushNeighbor(blankRow, blankCol + 1, stack, left);
      neighbors := right;
    }

    /**
      When (i, j) is on the grid, pushes the board for sliding its tile into the
      blank onto the stack. (i, j) is next to the blank, so of the four bounds
      only the one on the side of the move can fail.
     */
    method PushNeighbor(i: int, j: int, stack: seq<Board>, ghost below: seq<Grid>) returns (r: seq<Board>)
      requires WellFormed() && Adjacent(i, j, blankRow, blankCol) && CellsOf(stack) == below
      requires this !in stack && forall c :: c in stack ==> c.WellFormed() && c.Unused()
      ensures CellsOf(r) == PushSlide(cells, n, blankRow, blankCol, i, j, below)
      ensures this !in r && forall c :: c in r ==> c.WellFormed() && c.Unused() && (c in stack || fresh(c))
    {
      r := stack;
      if 0 <= i < n && 0 <= j < n {
        var b := SlideBoard(i, j);
        r := [b] + stack;
        assert r[1..] == stack;
      }
    }

    /** Copies the tiles, exchanges (i, j) with the blank and builds a board over the copy. */
    method SlideBoard(i: int, j: int) returns (b: Board)
      requires WellFormed() && InGrid(n, i, j)
      ensures fresh(b) && b.WellFormed() && b.Unused()
      ensures b.n == n && b.cells == Swap(cells, i, j, blankRow, blankCol)
    {
      var moved := DeepCopy();
      SwitchTiles(i, j, blankRow, blankCol, moved);
      SwapPreservesValid(cells, n, i, j, blankRow, blankCol);
      b := new Board(moved);
    }

    /**
      twin(): the first call copies the tiles, exchanges cell k with a
      horizontal neighbour and caches the result; every call returns a new
      board over the cached tiles, so all twins of a board are equal.
     */
    method Twin(k: int) returns (t: Board)
      requires Valid() && n >= 2 && 0 <= k <= n * n - 2
      modifies this
      ensures Valid() && fresh(Repr - old(Repr))
      ensures twinTiles != null
      ensures old(twinTiles) == null ==> twinIndex == k
      ensures old(twinTiles) != null ==> twinTiles == old(twinTiles) && twinIndex == old(twinIndex)
      ensures fresh(t) && t.WellFormed() && t.Unused()
      ensures t.n == n && t.cells == TwinGrid(cells, n, twinIndex)
      ensures neighbors == old(neighbors) && neighborsGen == old(neighborsGen)
    {
      if twinTiles == null {
        var tiles := DeepCopy();
        MakeTwin(tiles, k);
        TwinValid(cells, n, k);
        t := new Board(tiles);
        twinTiles, twinIndex, Repr := tiles, k, Repr + {tiles};
      } else {
        TwinValid(cells, n, twinIndex);
        t := new Board(twinTiles);
      }
    }

    /**
      Exchanges the tile at index k (row k / n, column k % n) with its left
      neighbour, or with its right neighbour when it is in the first column.
     */
    method MakeTwin(twin: array2<int>, k: int)
      requires n >= 2 && 0 <= k <= n * n - 2
      requires twin.Length0 == n && twin.Length1 == n
      modifies twin
      ensures Contents(twin) == TwinGrid(old(Contents(twin)), n, k)
    {
      TwinCellsInGrid(n, k);
      RowColOf(k, n);
      var i := k / n;
      var j := k % n;
      if j - 1 >= 0 {
        SwitchTiles(i, j - 1, i, j, twin);
      } else {
        SwitchTiles(i, j + 1, i, j, twin);
      }
    }
  }
}

=== FILE: grids.dfy ===
/**
  Value-level description of an n-by-n sliding-tile grid: the goal labelling,
  the Hamming and Manhattan distances, single swaps, the boards one slide away
  and the "twin" swap. Class Board (board.dfy) is specified in these terms.
  A grid is a sequence of rows; cell (i, j) is g[i][j] and 0 is the blank.
 */
module Grids {

  type Grid = seq<seq<int>>

  predicate IsSquare(g: Grid, n: int) {
    |g| == n && forall i :: 0 <= i < n ==> |g[i]| == n
  }

  /** The label the goal board holds at (i, j): row-major 1, 2, ..., with the blank last. */
  function GoalLabel(n: int, i: int, j: int): int {
    if i == n - 1 && j == n - 1 then 0 else i * n + j + 1
  }

  function GoalGrid(n: nat): (g: Grid)
    ensures IsSquare(g, n)
    ensures forall i, j :: 0 <= i < n && 0 <= j < n ==> g[i][j] == GoalLabel(n, i, j)
  {
    GoalRows(n, n)
  }

  /** The first k rows of the goal board. */
  function GoalRows(n: nat, k: nat): (g: Grid)
    ensures |g| == k && forall i :: 0 <= i < k ==> |g[i]| == n
    ensures forall i, j :: 0 <= i < k && 0 <= j < n ==> g[i][j] == GoalLabel(n, i, j)
  {
    if k == 0 then [] else GoalRows(n, k - 1) + [GoalRow(n, k - 1, n)]
  }

  /** The first k labels of row i of the goal board. */
  function GoalRow(n: nat, i: int, k: nat): (r: seq<int>)
    ensures |r| == k && forall j :: 0 <= j < k ==> r[j] == GoalLabel(n, i, j)
  {
    if k == 0 then [] else GoalRow(n, i, k - 1) + [GoalLabel(n, i, k - 1)]
  }

  /**
    The tile at (i, j), -1 off the grid. The distinctness clause of ValidGrid is
    phrased with it so that it is only instantiated for cells a proof names.
   */
  function Cell(g: Grid, i: int, j: int): int {
    if 0 <= i < |g| && 0 <= j < |g[i]| then g[i][j] else -1
  }

  /** Square of side n >= 1, holding each of 0..n*n-1 at most once. */
  ghost predicate DistinctTiles(g: Grid, n: int) {
    && n >= 1
    && IsSquare(g, n)
    && (forall i, j :: 0 <= i < n && 0 <= j < n ==> 0 <= g[i][j] < n * n)
    && (forall i1, j1, i2, j2 ::
          0 <= i1 < n && 0 <= j1 < n && 0 <= i2 < n && 0 <= j2 < n && Cell(g, i1, j1) == Cell(g, i2, j2)
          ==> i1 == i2 && j1 == j2)
  }

  /** A well-formed board: its tiles are a permutation of 0..n*n-1, so one cell holds the blank. */
  ghost predicate ValidGrid(g: Grid, n: int) {
    && DistinctTiles(g, n)
    && (exists i, j :: 0 <= i < n && 0 <= j < n && g[i][j] == 0)
  }


  function Abs(x: int): nat {
    if x < 0 then -x else x
  }

  // ---------------------------------------------------------------------
  // Division facts about row-major positions
  // ---------------------------------------------------------------------

  /** a < b implies a*n + n <= b*n for positive n. */
  lemma MulStep(a: int, b: int, n: int)
    requires n > 0 && a < b
    ensures a * n + n <= b * n
  {
    var d := b - a - 1;
    assert b * n == (a + 1 + d) * n == a * n + n + d * n;
  }

  lemma DivModOfPosition(q: int, r: int, n: int)
    requires n > 0 && 0 <= r < n
    ensures (q * n + r) / n == q && (q * n + r) % n == r
  {
    var x := q * n + r;
    var q', r' := x / n, x % n;
    assert q' * n + r' == x;
    if q' > q {
      MulStep(q, q', n);
    } else if q' < q {
      MulStep(q', q, n);
    }
  }

  /** Row of row-major position p on a grid n cells wide, by repeated subtraction. */
  function RowOf(p: nat, n: int): nat
    requires n >= 1
    decreases p
  {
    if p < n then 0 else 1 + RowOf(p - n, n)
  }

  /** Column of row-major position p on a grid n cells wide, by repeated subtraction. */
  function ColOf(p: nat, n: int): nat
    requires n >= 1
    decreases p
  {
    if p < n then p else ColOf(p - n, n)
  }

  /** RowOf and ColOf are the quotient and remainder of p by n. */
  lemma {:induction false} RowColOf(p: nat, n: int)
    requires n >= 1
    ensures RowOf(p, n) == p / n && ColOf(p, n) == p % n
  {
    if p < n {
      DivModOfPosition(0, p, n);
    } else {
      RowColOf(p - n, n);
      var q, r := (p - n) / n, (p - n) % n;
      assert (q + 1) * n + r == p;
      DivModOfPosition(q + 1, r, n);
    }
  }

  lemma PositionBelowSquare(i: int, j: int, n: int)
    requires 0 <= i < n && 0 <= j < n
    ensures 0 <= i * n + j < n * n
    ensures i * n + j == n * n - 1 <==> i == n - 1 && j == n - 1
  {
    assert i * n <= (n - 1) * n;
    assert (n - 1) * n == n * n - n;
    if i < n - 1 {
      assert i * n <= (n - 2) * n;
      assert (n - 2) * n == n * n - 2 * n;
    }
  }

  /** Tile t in 1..n*n-1 belongs at row (t-1)/n, column (t-1)%n. */
  lemma GoalCellOfTile(n: int, t: int)
    requires n >= 1 && 1 <= t <= n * n - 1
    ensures 0 <= (t - 1) / n < n && 0 <= (t - 1) % n < n
    ensures GoalLabel(n, (t - 1) / n, (t - 1) % n) == t
    ensures CorrectCoord(n, t) == ((t - 1) / n, (t - 1) % n)
  {
    var i, j := (t - 1) / n, (t - 1) % n;
    PositionInSquare(t - 1, n);
    PositionBelowSquare(i, j, n);
    RowColOf(t - 1, n);
  }

  /** A position p below n*n lies in row p/n < n. */
  lemma PositionInSquare(p: int, n: int)
    requires n >= 1 && 0 <= p < n * n
    ensures 0 <= p / n < n && 0 <= p % n < n && p / n * n + p % n == p
  {
    var i := p / n;
    if i >= n {
      MulStep(n - 1, i, n);
    }
  }

  /** The goal label determines the cell: (i, j) is the only cell labelled GoalLabel(n, i, j). */
  lemma GoalLabelInjective(n: int, i1: int, j1: int, i2: int, j2: int)
    requires 0 <= i1 < n && 0 <= j1 < n && 0 <= i2 < n && 0 <= j2 < n
    requires GoalLabel(n, i1, j1) == GoalLabel(n, i2, j2)
    ensures i1 == i2 && j1 == j2
  {
    PositionBelowSquare(i1, j1, n);
    PositionBelowSquare(i2, j2, n);
    if !(i1 == n - 1 && j1 == n - 1) && !(i2 == n - 1 && j2 == n - 1) {
      DivModOfPosition(i1, j1, n);
      DivModOfPosition(i2, j2, n);
    }
  }

  /** The goal board is itself a well-formed board. */
  lemma GoalGridValid(n: nat)
    requires n >= 1
    ensures ValidGrid(GoalGrid(n), n)
  {
    var g := GoalGrid(n);
    forall i, j | 0 <= i < n && 0 <= j < n
      ensures 0 <= g[i][j] < n * n
    {
      PositionBelowSquare(i, j, n);
    }
    forall i1, j1, i2, j2 |
      0 <= i1 < n && 0 <= j1 < n && 0 <= i2 < n && 0 <= j2 < n && g[i1][j1] == g[i2][j2]
      ensures i1 == i2 && j1 == j2
    {
      GoalLabelInjective(n, i1, j1, i2, j2);
    }
    assert g[n - 1][n - 1] == 0;
  }

  // ---------------------------------------------------------------------
  // Hamming distance
  // ---------------------------------------------------------------------

  /** Tile at (i, j) is neither the blank nor the goal label of its cell. */
  predicate Misplaced(g: Grid, n: int, i: int, j: int)
    requires 0 <= i < |g| && 0 <= j < |g[i]|
  {
    g[i][j] != 0 && g[i][j] != GoalLabel(n, i, j)
  }

  /** Number of cells (i, 0..j-1) where a holds a non-blank tile other than b's. */
  function RowMismatches(a: Grid, b: Grid, i: int, j: int): nat
    requires 0 <= i < |a| && i < |b| && 0 <= j <= |a[i]| && j <= |b[i]|
  {
    if j == 0 then 0
    else RowMismatches(a, b, i, j - 1) + (if a[i][j - 1] != b[i][j - 1] && a[i][j - 1] != 0 then 1 else 0)
  }

  /** Mismatches in rows 0..rows-1, columns 0..size-1. */
  function Mismatches(a: Grid, b: Grid, rows: int, size: int): nat
    requires 0 <= rows <= |a| && rows <= |b| && 0 <= size
    requires forall i :: 0 <= i < rows ==> size <= |a[i]| && size <= |b[i]|
  {
    if rows == 0 then 0 else Mismatches(a, b, rows - 1, size) + RowMismatches(a, b, rows - 1, size)
  }

  /** Hamming distance: number of non-blank tiles not on their goal cell. */
  function HammingOf(g: Grid, n: nat): nat
    requires IsSquare(g, n)
  {
    Mismatches(g, GoalGrid(n), n, n)
  }

  ghost predicate NoneMisplaced(g: Grid, n: nat)
    requires IsSquare(g, n)
  {
    forall i, j :: 0 <= i < n && 0 <= j < n ==> !Misplaced(g, n, i, j)
  }

  lemma {:induction false} RowMismatchesZero(g: Grid, n: nat, i: int, j: int)
    requires IsSquare(g, n) && 0 <= i < n && 0 <= j <= n
    ensures RowMismatches(g, GoalGrid(n), i, j) == 0 <==> forall c :: 0 <= c < j ==> !Misplaced(g, n, i, c)
  {
    if j > 0 {
      RowMismatchesZero(g, n, i, j - 1);
      var b := GoalGrid(n);
      assert (g[i][j - 1] != b[i][j - 1] && g[i][j - 1] != 0) == Misplaced(g, n, i, j - 1);
    }
  }

  lemma {:induction false} MismatchesZero(g: Grid, n: nat, rows: int)
    requires IsSquare(g, n) && 0 <= rows <= n
    ensures Mismatches(g, GoalGrid(n), rows, n) == 0 <==>
            forall r, c :: 0 <= r < rows && 0 <= c < n ==> !Misplaced(g, n, r, c)
  {
    if rows > 0 {
      MismatchesZero(g, n, rows - 1);
      RowMismatchesZero(g, n, rows - 1, n);
    }
  }

  /** hamming() == 0 exactly when no non-blank tile is out of place. */
  lemma HammingZeroIff(g: Grid, n: nat)
    requires IsSquare(g, n)
    ensures HammingOf(g, n) == 0 <==> NoneMisplaced(g, n)
  {
    MismatchesZero(g, n, n);
  }

  lemma {:induction false} RowMismatchesBound(g: Grid, n: nat, i: int, j: int, zc: int)
    requires IsSquare(g, n) && 0 <= i < n && 0 <= j <= n
    ensures RowMismatches(g, GoalGrid(n), i, j) <= j
    ensures 0 <= zc < j && g[i][zc] == 0 ==> RowMismatches(g, GoalGrid(n), i, j) <= j - 1
  {
    if j > 0 {
      RowMismatchesBound(g, n, i, j - 1, zc);
    }
  }

  lemma {:induction false} MismatchesBound(g: Grid, n: nat, rows: int, zr: int, zc: int)
    requires IsSquare(g, n) && 0 <= rows <= n
    requires 0 <= zr < n && 0 <= zc < n && g[zr][zc] == 0
    ensures Mismatches(g, GoalGrid(n), rows, n) <= rows * n
    ensures zr < rows ==> Mismatches(g, GoalGrid(n), rows, n) <= rows * n - 1
  {
    if rows > 0 {
      MismatchesBound(g, n, rows - 1, zr, zc);
      RowMismatchesBound(g, n, rows - 1, n, zc);
      assert (rows - 1) * n + n == rows * n;
    }
  }

  /** With a blank on the board, at most n*n-1 tiles can be out of place. */
  lemma HammingBound(g: Grid, n: nat)
    requires ValidGrid(g, n)
    ensures HammingOf(g, n) <= n * n - 1
  {
    var zr, zc :| 0 <= zr < n && 0 <= zc < n && g[zr][zc] == 0;
    MismatchesBound(g, n, n, zr, zc);
  }

  /** For a permutation board, being the goal is the same as having Hamming distance 0. */
  lemma GoalIffHammingZero(g: Grid, n: nat)
    requires ValidGrid(g, n)
    ensures g == GoalGrid(n) <==> HammingOf(g, n) == 0
  {
    HammingZeroIff(g, n);
    var goal := GoalGrid(n);
    if HammingOf(g, n) == 0 {
      var zr, zc :| 0 <= zr < n && 0 <= zc < n && g[zr][zc] == 0;
      // the last cell's goal label is 0, so a tile there would be misplaced
      assert !Misplaced(g, n, n - 1, n - 1);
      assert g[n - 1][n - 1] == 0;
      forall i, j | 0 <= i < n && 0 <= j < n
        ensures g[i][j] == goal[i][j]
      {
        assert !Misplaced(g, n, i, j);
        if g[i][j] == 0 {
          assert Cell(g, i, j) == Cell(g, n - 1, n - 1);
        }
      }
      forall i | 0 <= i < n
        ensures g[i] == goal[i]
      {
      }
    } else {
      assert !NoneMisplaced(g, n);
    }
  }

  // ---------------------------------------------------------------------
  // Manhattan distance
  // ---------------------------------------------------------------------

  /**
    Cell holding label t on the goal board, found by a row-major scan:
    (-1, -1) when no cell carries that label.
   */
  function CorrectCoord(n: int, t: int): (int, int) {
    if n >= 1 && t == 0 then (n - 1, n - 1)
    else if n >= 1 && 1 <= t <= n * n - 1 then (RowOf(t - 1, n), ColOf(t - 1, n))
    else (-1, -1)
  }

  /** Contribution of cell (i, j) to the Manhattan distance. */
  function TileCost(g: Grid, n: int, i: int, j: int): nat
    requires 0 <= i < |g| && 0 <= j < |g[i]|
  {
    if Misplaced(g, n, i, j) then
      var (ci, cj) := CorrectCoord(n, g[i][j]);
      Abs(i - ci) + Abs(j - cj)
    else 0
  }

  function RowManhattan(g: Grid, n: int, i: int, j: int): nat
    requires 0 <= i < |g| && 0 <= j <= |g[i]|
  {
    if j == 0 then 0 else RowManhattan(g, n, i, j - 1) + TileCost(g, n, i, j - 1)
  }

  function ManhattanRows(g: Grid, n: int, rows: int): nat
    requires IsSquare(g, n) && 0 <= rows <= n
  {
    if rows == 0 then 0 else ManhattanRows(g, n, rows - 1) + RowManhattan(g, n, rows - 1, n)
  }

  /** Manhattan distance: the sum over misplaced tiles of their row and column distance to their goal cell. */
  function ManhattanOf(g: Grid, n: nat): nat
    requires IsSquare(g, n)
  {
    ManhattanRows(g, n, n)
  }

  /** The scan finds, for a goal label, the cell carrying it. */
  lemma CorrectCoordOfLabel(n: int, i: int, j: int)
    requires InGrid(n, i, j)
    ensures CorrectCoord(n, GoalLabel(n, i, j)) == (i, j)
  {
    PositionBelowSquare(i, j, n);
    if !(i == n - 1 && j == n - 1) {
      DivModOfPosition(i, j, n);
      RowColOf(i * n + j, n);
    }
  }

  /** Whenever the scan succeeds, the cell it reports carries the label looked for. */
  lemma LabelOfCorrectCoord(n: int, t: int)
    ensures CorrectCoord(n, t) != (-1, -1) ==>
              InGrid(n, CorrectCoord(n, t).0, CorrectCoord(n, t).1) &&
              GoalLabel(n, CorrectCoord(n, t).0, CorrectCoord(n, t).1) == t
  {
    if n >= 1 && 1 <= t <= n * n - 1 {
      GoalCellOfTile(n, t);
    }
  }

  /** A misplaced tile is at least one step from its goal cell. */
  lemma MisplacedCostsAtLeastOne(g: Grid, n: nat, i: int, j: int)
    requires IsSquare(g, n) && 0 <= i < n && 0 <= j < n
    ensures Misplaced(g, n, i, j) ==> TileCost(g, n, i, j) >= 1
  {
    var t := g[i][j];
    if Misplaced(g, n, i, j) && 1 <= t <= n * n - 1 {
      GoalCellOfTile(n, t);
      var (ci, cj) := CorrectCoord(n, t);
      assert (ci, cj) == ((t - 1) / n, (t - 1) % n);
    }
  }

  lemma {:induction false} RowHammingAtMostManhattan(g: Grid, n: nat, i: int, j: int)
    requires IsSquare(g, n) && 0 <= i < n && 0 <= j <= n
    ensures RowMismatches(g, GoalGrid(n), i, j) <= RowManhattan(g, n, i, j)
    ensures RowManhattan(g, n, i, j) == 0 <==> RowMismatches(g, GoalGrid(n), i, j) == 0
  {
    if j > 0 {
      RowHammingAtMostManhattan(g, n, i, j - 1);
      MisplacedCostsAtLeastOne(g, n, i, j - 1);
    }
  }

  lemma {:induction false} RowsHammingAtMostManhattan(g: Grid, n: nat, rows: int)
    requires IsSquare(g, n) && 0 <= rows <= n
    ensures Mismatches(g, GoalGrid(n), rows, n) <= ManhattanRows(g, n, rows)
    ensures ManhattanRows(g, n, rows) == 0 <==> Mismatches(g, GoalGrid(n), rows, n) == 0
  {
    if rows > 0 {
      RowsHammingAtMostManhattan(g, n, rows - 1);
      RowHammingAtMostManhattan(g, n, rows - 1, n);
    }
  }

  /**
    Every misplaced tile adds exactly 1 to the Hamming distance and at least 1 to
    the Manhattan distance, so manhattan >= hamming, and one is 0 exactly when the
    other is. No permutation assumption is needed.
   */
  lemma HammingAtMostManhattan(g: Grid, n: nat)
    requires IsSquare(g, n)
    ensures HammingOf(g, n) <= ManhattanOf(g, n)
    ensures ManhattanOf(g, n) == 0 <==> HammingOf(g, n) == 0
  {
    RowsHammingAtMostManhattan(g, n, n);
  }

  /** The goal board has both distances 0. */
  lemma GoalDistancesZero(n: nat)
    ensures HammingOf(GoalGrid(n), n) == 0 && ManhattanOf(GoalGrid(n), n) == 0
  {
    var g := GoalGrid(n);
    forall i, j | 0 <= i < n && 0 <= j < n
      ensures !Misplaced(g, n, i, j)
    {
    }
    HammingZeroIff(g, n);
    HammingAtMostManhattan(g, n);
  }

  /** On a permutation board a misplaced tile is at most 2(n-1) steps from its goal cell. */
  lemma TileCostBound(g: Grid, n: nat, i: int, j: int)
    requires DistinctTiles(g, n) && 0 <= i < n && 0 <= j < n
    ensures TileCost(g, n, i, j) <= (if Misplaced(g, n, i, j) then 2 * (n - 1) else 0)
  {
    var t := g[i][j];
    if Misplaced(g, n, i, j) {
      assert 1 <= t <= n * n - 1;
      LabelOfCorrectCoord(n, t);
    }
  }

  /** Distributivity and monotonicity of multiplication by k, for the bound below. */
  lemma MulAdd(k: nat, a: nat, b: nat)
    ensures k * (a + b) == k * a + k * b
  {
  }

  lemma MulMono(k: nat, a: nat, b: nat)
    requires a <= b
    ensures k * a <= k * b
  {
    MulAdd(k, a, b - a);
  }

  lemma {:induction false} RowManhattanBound(g: Grid, n: nat, i: int, j: int)
    requires DistinctTiles(g, n) && 0 <= i < n && 0 <= j <= n
    ensures RowManhattan(g, n, i, j) <= 2 * (n - 1) * RowMismatches(g, GoalGrid(n), i, j)
  {
    if j > 0 {
      RowManhattanBound(g, n, i, j - 1);
      TileCostBound(g, n, i, j - 1);
      var m := RowMismatches(g, GoalGrid(n), i, j - 1);
      MulAdd(2 * (n - 1), m, 1);
    }
  }

  lemma {:induction false} ManhattanRowsBound(g: Grid, n: nat, rows: int)
    requires DistinctTiles(g, n) && 0 <= rows <= n
    ensures ManhattanRows(g, n, rows) <= 2 * (n - 1) * Mismatches(g, GoalGrid(n), rows, n)
  {
    if rows > 0 {
      ManhattanRowsBound(g, n, rows - 1);
      RowManhattanBound(g, n, rows - 1, n);
      MulAdd(2 * (n - 1), Mismatches(g, GoalGrid(n), rows - 1, n), RowMismatches(g, GoalGrid(n), rows - 1, n));
    }
  }

  /** The Manhattan distance of a permutation board is at most 2(n-1) for each of its n*n-1 tiles. */
  lemma ManhattanBound(g: Grid, n: nat)
    requires ValidGrid(g, n)
    ensures ManhattanOf(g, n) <= 2 * (n - 1) * (n * n - 1)
  {
    ManhattanRowsBound(g, n, n);
    HammingBound(g, n);
    MulMono(2 * (n - 1), HammingOf(g, n), n * n - 1);
  }

  /**
    The source sums the Manhattan distance in a 32-bit int. Up to n = 1024
    the sum of every permutation board stays below 2^31, so it does not wrap.
   */
  lemma ManhattanFitsInt32(g: Grid, n: nat)
    requires ValidGrid(g, n) && n <= 1024
    ensures ManhattanOf(g, n) < 0x8000_0000
  {
    ManhattanBound(g, n);
    MulMono(n, n, 1024);
    MulMono(1024, n, 1024);
    MulMono(2 * (n - 1), n * n - 1, 1024 * 1024 - 1);
    MulMono(1024 * 1024 - 1, 2 * (n - 1), 2046);
  }

  // ---------------------------------------------------------------------
  // Swapping two cells
  // ---------------------------------------------------------------------

  predicate InGrid(n: int, i: int, j: int) {
    0 <= i < n && 0 <= j < n
  }

  /** The grid with cells (i1, j1) and (i2, j2) exchanged. */
  function Swap(g: Grid, i1: int, j1: int, i2: int, j2: int): (h: Grid)
    requires 0 <= i1 < |g| && 0 <= j1 < |g[i1]| && 0 <= i2 < |g| && 0 <= j2 < |g[i2]|
    ensures |h| == |g| && forall r :: 0 <= r < |g| ==> |h[r]| == |g[r]|
    ensures forall r, c :: 0 <= r < |g| && 0 <= c < |g[r]| ==>
              h[r][c] == if r == i1 && c == j1 then g[i2][j2]
                         else if r == i2 && c == j2 then g[i1][j1]
                         else g[r][c]
  {
    var first := g[i1 := g[i1][j1 := g[i2][j2]]];
    first[i2 := first[i2][j2 := g[i1][j1]]]
  }


  /** Swapping the same two cells again restores the grid. */
  lemma SwapInvolution(g: Grid, n: nat, i1: int, j1: int, i2: int, j2: int)
    requires IsSquare(g, n) && InGrid(n, i1, j1) && InGrid(n, i2, j2)
    ensures Swap(Swap(g, i1, j1, i2, j2), i1, j1, i2, j2) == g
  {
    var h := Swap(Swap(g, i1, j1, i2, j2), i1, j1, i2, j2);
    forall r | 0 <= r < n
      ensures h[r] == g[r]
    {
    }
  }

  /** A swap of two cells keeps a board a permutation of 0..n*n-1. */
  lemma SwapPreservesValid(g: Grid, n: nat, i1: int, j1: int, i2: int, j2: int)
    requires ValidGrid(g, n) && InGrid(n, i1, j1) && InGrid(n, i2, j2)
    ensures ValidGrid(Swap(g, i1, j1, i2, j2), n)
  {
    var h := Swap(g, i1, j1, i2, j2);
    // h's cell (r, c) holds g's tile from SwapSource(r, c)
    forall r1, c1, r2, c2 |
      0 <= r1 < n && 0 <= c1 < n && 0 <= r2 < n && 0 <= c2 < n && Cell(h, r1, c1) == Cell(h, r2, c2)
      ensures r1 == r2 && c1 == c2
    {
      SwapCell(g, n, i1, j1, i2, j2, r1, c1);
      SwapCell(g, n, i1, j1, i2, j2, r2, c2);
    }
    var zr, zc :| 0 <= zr < n && 0 <= zc < n && g[zr][zc] == 0;
    var (wr, wc) := SwapSource(zr, zc, i1, j1, i2, j2);
    assert h[wr][wc] == 0;
  }

  lemma SwapCell(g: Grid, n: nat, i1: int, j1: int, i2: int, j2: int, r: int, c: int)
    requires IsSquare(g, n) && InGrid(n, i1, j1) && InGrid(n, i2, j2) && InGrid(n, r, c)
    ensures InGrid(n, SwapSource(r, c, i1, j1, i2, j2).0, SwapSource(r, c, i1, j1, i2, j2).1)
    ensures Cell(Swap(g, i1, j1, i2, j2), r, c) == Cell(g, SwapSource(r, c, i1, j1, i2, j2).0, SwapSource(r, c, i1, j1, i2, j2).1)
  {
  }

  /** The cell whose tile a swap of (i1, j1) and (i2, j2) moves to (r, c); the swap is its own inverse. */
  function SwapSource(r: int, c: int, i1: int, j1: int, i2: int, j2: int): (int, int) {
    if r == i1 && c == j1 then (i2, j2) else if r == i2 && c == j2 then (i1, j1) else (r, c)
  }


  // ---------------------------------------------------------------------
  // Slides of the blank
  // ---------------------------------------------------------------------

  predicate Adjacent(i1: int, j1: int, i2: int, j2: int) {
    Abs(i1 - i2) + Abs(j1 - j2) == 1
  }

  /**
    s with the board for sliding the tile at (i, j) into the blank at (bi, bj)
    pushed on top, when (i, j) is on the grid; s itself otherwise.
   */
  function PushSlide(g: Grid, n: int, bi: int, bj: int, i: int, j: int, s: seq<Grid>): seq<Grid>
    requires IsSquare(g, n) && InGrid(n, bi, bj)
  {
    if InGrid(n, i, j) then [Swap(g, i, j, bi, bj)] + s else s
  }

  /** The boards on the stack after a PushSlide: the pushed slide, if any, and those below it. */
  lemma PushSlideMembers(g: Grid, n: int, bi: int, bj: int, i: int, j: int, s: seq<Grid>, h: Grid)
    requires IsSquare(g, n) && InGrid(n, bi, bj)
    ensures h in PushSlide(g, n, bi, bj, i, j, s) <==> (InGrid(n, i, j) && h == Swap(g, i, j, bi, bj)) || h in s
  {
  }

  /**
    The boards one slide away from g, whose blank is at (bi, bj), in the order a
    stack yields them after the slides up, down, left and right were pushed,
    each one only where the grid allows it.
   */
  function NeighborGrids(g: Grid, n: int, bi: int, bj: int): seq<Grid>
    requires IsSquare(g, n) && InGrid(n, bi, bj)
  {
    PushSlide(g, n, bi, bj, bi, bj + 1,
    PushSlide(g, n, bi, bj, bi, bj - 1,
    PushSlide(g, n, bi, bj, bi + 1, bj,
    PushSlide(g, n, bi, bj, bi - 1, bj, []))))
  }

  /** h arises from g by sliding a tile orthogonally adjacent to the blank into it. */
  ghost predicate IsSlide(g: Grid, h: Grid, n: int) {
    IsSquare(g, n) &&
    exists bi, bj, i, j ::
      InGrid(n, bi, bj) && InGrid(n, i, j) && g[bi][bj] == 0 && Adjacent(i, j, bi, bj) &&
      h == Swap(g, i, j, bi, bj)
  }

  lemma SlideWitness(g: Grid, n: int, bi: int, bj: int, i: int, j: int)
    requires IsSquare(g, n) && InGrid(n, bi, bj) && InGrid(n, i, j) && g[bi][bj] == 0 && Adjacent(i, j, bi, bj)
    ensures IsSlide(g, Swap(g, i, j, bi, bj), n)
  {
  }

  /** The number of neighbours: 2 at a corner, 3 on an edge, 4 inside. */
  function ExpectedNeighborCount(n: int, bi: int, bj: int): int {
    4 - (if bi == 0 || bi == n - 1 then 1 else 0) - (if bj == 0 || bj == n - 1 then 1 else 0)
  }

  lemma NeighborCount(g: Grid, n: int, bi: int, bj: int)
    requires n >= 2 && IsSquare(g, n) && InGrid(n, bi, bj)
    ensures |NeighborGrids(g, n, bi, bj)| == ExpectedNeighborCount(n, bi, bj)
    ensures 2 <= |NeighborGrids(g, n, bi, bj)| <= 4
  {
  }

  /**
    With the blank at (bi, bj), the generated neighbours are exactly the slides of g:
    each of them is one, and every slide is among them.
   */
  lemma NeighborsAreSlides(g: Grid, n: nat, bi: int, bj: int, h: Grid)
    requires ValidGrid(g, n) && InGrid(n, bi, bj) && g[bi][bj] == 0
    ensures h in NeighborGrids(g, n, bi, bj) <==> IsSlide(g, h, n)
  {
    if h in NeighborGrids(g, n, bi, bj) {
      NeighborIsSlide(g, n, bi, bj, h);
    }
    if IsSlide(g, h, n) {
      SlideIsGenerated(g, n, bi, bj, h);
    }
  }

  /** A slide of g moves the tile into the one blank of g, at (bi, bj), so it is generated. */
  lemma SlideIsGenerated(g: Grid, n: nat, bi: int, bj: int, h: Grid)
    requires DistinctTiles(g, n) && InGrid(n, bi, bj) && g[bi][bj] == 0
    requires IsSlide(g, h, n)
    ensures h in NeighborGrids(g, n, bi, bj)
  {
    var bi', bj', i, j :|
      InGrid(n, bi', bj') && InGrid(n, i, j) && g[bi'][bj'] == 0 && Adjacent(i, j, bi', bj') &&
      h == Swap(g, i, j, bi', bj');
    assert Cell(g, bi', bj') == Cell(g, bi, bj);
    SlideIsNeighbor(g, n, bi, bj, i, j);
  }

  lemma NeighborIsSlide(g: Grid, n: nat, bi: int, bj: int, h: Grid)
    requires IsSquare(g, n) && InGrid(n, bi, bj) && g[bi][bj] == 0
    requires h in NeighborGrids(g, n, bi, bj)
    ensures IsSlide(g, h, n)
  {
    var s3 := PushSlide(g, n, bi, bj, bi - 1, bj, []);
    var s2 := PushSlide(g, n, bi, bj, bi + 1, bj, s3);
    var s1 := PushSlide(g, n, bi, bj, bi, bj - 1, s2);
    PushSlideMembers(g, n, bi, bj, bi, bj + 1, s1, h);
    PushSlideMembers(g, n, bi, bj, bi, bj - 1, s2, h);
    PushSlideMembers(g, n, bi, bj, bi + 1, bj, s3, h);
    PushSlideMembers(g, n, bi, bj, bi - 1, bj, [], h);
    if InGrid(n, bi, bj + 1) && h == Swap(g, bi, bj + 1, bi, bj) {
      SlideWitness(g, n, bi, bj, bi, bj + 1);
    } else if InGrid(n, bi, bj - 1) && h == Swap(g, bi, bj - 1, bi, bj) {
      SlideWitness(g, n, bi, bj, bi, bj - 1);
    } else if InGrid(n, bi + 1, bj) && h == Swap(g, bi + 1, bj, bi, bj) {
      SlideWitness(g, n, bi, bj, bi + 1, bj);
    } else {
      SlideWitness(g, n, bi, bj, bi - 1, bj);
    }
  }

  lemma SlideIsNeighbor(g: Grid, n: nat, bi: int, bj: int, i: int, j: int)
    requires IsSquare(g, n) && InGrid(n, bi, bj) && InGrid(n, i, j) && Adjacent(i, j, bi, bj)
    ensures Swap(g, i, j, bi, bj) in NeighborGrids(g, n, bi, bj)
  {
    var s3 := PushSlide(g, n, bi, bj, bi - 1, bj, []);
    var s2 := PushSlide(g, n, bi, bj, bi + 1, bj, s3);
    var s1 := PushSlide(g, n, bi, bj, bi, bj - 1, s2);
    var h := Swap(g, i, j, bi, bj);
    PushSlideMembers(g, n, bi, bj, bi, bj + 1, s1, h);
    PushSlideMembers(g, n, bi, bj, bi, bj - 1, s2, h);
    PushSlideMembers(g, n, bi, bj, bi + 1, bj, s3, h);
    PushSlideMembers(g, n, bi, bj, bi - 1, bj, [], h);
  }

  /** Each neighbour is again a permutation board. */
  lemma NeighborsValid(g: Grid, n: nat, bi: int, bj: int)
    requires ValidGrid(g, n) && InGrid(n, bi, bj) && g[bi][bj] == 0
    ensures forall h :: h in NeighborGrids(g, n, bi, bj) ==> ValidGrid(h, n)
  {
    forall h | h in NeighborGrids(g, n, bi, bj)
      ensures ValidGrid(h, n)
    {
      NeighborsAreSlides(g, n, bi, bj, h);
      var bi', bj', i, j :|
        InGrid(n, bi', bj') && InGrid(n, i, j) && g[bi'][bj'] == 0 && Adjacent(i, j, bi', bj') &&
        h == Swap(g, i, j, bi', bj');
      SwapPreservesValid(g, n, i, j, bi', bj');
    }
  }

  // ---------------------------------------------------------------------
  // The twin: a swap of two horizontally adjacent cells
  // ---------------------------------------------------------------------

  /** The cell picked by index k (0 <= k <= n*n-2) and the cell it is swapped with. */
  function TwinCells(n: int, k: nat): (int, int, int)
    requires n >= 1
  {
    var i := RowOf(k, n);
    var j := ColOf(k, n);
    if j - 1 >= 0 then (i, j, j - 1) else (i, j, j + 1)
  }

  lemma TwinCellsInGrid(n: int, k: int)
    requires n >= 2 && 0 <= k <= n * n - 2
    ensures var (i, j, j') := TwinCells(n, k);
            InGrid(n, i, j) && InGrid(n, i, j') && Adjacent(i, j, i, j')
  {
    RowColOf(k, n);
    var i := k / n;
    assert i * n + k % n == k;
    if i >= n {
      MulStep(n - 1, i, n);
    }
  }

  /**
    The grid the twin board gets: cell k (row k/n, column k%n) swapped with its
    left neighbour, or with its right neighbour when it is in column 0. The
    choice ignores where the blank is.
   */
  function TwinGrid(g: Grid, n: int, k: int): Grid
    requires n >= 2 && IsSquare(g, n) && 0 <= k <= n * n - 2
  {
    TwinCellsInGrid(n, k);
    var (i, j, j') := TwinCells(n, k);
    Swap(g, i, j', i, j)
  }

  /**
    The twin differs from g in exactly the two horizontally adjacent cells picked
    by k, whose tiles it exchanges, and it is again a permutation board.
   */
  lemma TwinDiffersInTwoAdjacentCells(g: Grid, n: nat, k: int)
    requires n >= 2 && ValidGrid(g, n) && 0 <= k <= n * n - 2
    ensures var (i, j, j') := TwinCells(n, k);
            var t := TwinGrid(g, n, k);
            && ValidGrid(t, n)
            && InGrid(n, i, j) && InGrid(n, i, j') && Adjacent(i, j, i, j')
            && t[i][j] == g[i][j'] && t[i][j'] == g[i][j]
            && (forall r, c :: InGrid(n, r, c) ==> (t[r][c] != g[r][c] <==> (r, c) == (i, j) || (r, c) == (i, j')))
  {
    TwinCellsInGrid(n, k);
    var (i, j, j') := TwinCells(n, k);
    SwapPreservesValid(g, n, i, j', i, j);
    assert Cell(g, i, j) != Cell(g, i, j');
  }

  /** The twin of a well-formed grid is well-formed. */
  lemma TwinValid(g: Grid, n: nat, k: int)
    requires n >= 2 && ValidGrid(g, n) && 0 <= k <= n * n - 2
    ensures ValidGrid(TwinGrid(g, n, k), n)
  {
    TwinCellsInGrid(n, k);
    var (i, j, j') := TwinCells(n, k);
    SwapPreservesValid(g, n, i, j', i, j);
  }

  lemma GoalGridOfTwo()
    ensures GoalGrid(2) == [[1, 2], [3, 0]]
  {
    var goal := GoalGrid(2);
    assert goal[0][0] == 1 && goal[0][1] == 2 && goal[1][0] == 3 && goal[1][1] == 0;
    assert goal[0] == [1, 2] && goal[1] == [3, 0];
  }

  lemma ExampleTwin()
    ensures TwinGrid([[1, 2], [0, 3]], 2, 2) == Swap([[1, 2], [0, 3]], 1, 1, 1, 0) == [[1, 2], [3, 0]]
  {
    assert TwinCells(2, 2) == (1, 0, 1);
    var t := Swap([[1, 2], [0, 3]], 1, 1, 1, 0);
    assert t[0] == [1, 2] && t[1] == [3, 0];
  }

  lemma ExampleValid()
    ensures ValidGrid([[1, 2], [0, 3]], 2)
  {
    var goal := GoalGrid(2);
    GoalGridOfTwo();
    GoalGridValid(2);
    var back := Swap(goal, 1, 1, 1, 0);
    assert back[0] == [1, 2] && back[1] == [0, 3];
    assert back == [[1, 2], [0, 3]];
    SwapPreservesValid(goal, 2, 1, 1, 1, 0);
  }

  lemma ExampleSlide()
    ensures IsSlide([[1, 2], [0, 3]], [[1, 2], [3, 0]], 2)
  {
    ExampleTwin();
    SlideWitness([[1, 2], [0, 3]], 2, 1, 0, 1, 1);
  }

  /**
    The twin may move the blank. On the 2-by-2 board [[1, 2], [0, 3]] with k = 2
    the picked cell is (1, 0), in column 0, so it is swapped with (1, 1): the
    blank slides right and the twin is the goal board, one legal slide from g.
   */
  lemma TwinCanMoveBlank()
    ensures var g := [[1, 2], [0, 3]];
            && ValidGrid(g, 2)
            && TwinGrid(g, 2, 2) == GoalGrid(2)
            && IsSlide(g, TwinGrid(g, 2, 2), 2)
  {
    GoalGridOfTwo();
    ExampleTwin();
    ExampleValid();
    ExampleSlide();
  }
}

=== FILE: solver.dfy ===
/**
  The Solver: an A* search over boards that runs two searches in lock-step,
  one from the initial board and one from its twin, each with its own
  priority queue ordered by Manhattan priority. Whichever search pops the
  goal board first decides solvability, and the chain of predecessors of the
  popped node is the solution.
 */
module Solvers {
  import opened Grids
  import opened Boards

  // ---------------------------------------------------------------------
  // Search nodes
  // ---------------------------------------------------------------------

  /** A search node: a board, the moves made to reach it, the node it was reached from, and its two priorities. */
  datatype SearchNode = SearchNode(
    board: Board,
    moves: int,
    prev: Option<SearchNode>,
    hammingPriority: int,
    manhattanPriority: int)

  /** The node constructor: each priority is the board's distance plus the moves made so far. */
  function NewNode(board: Board, moves: int, prev: Option<SearchNode>): (s: SearchNode)
    requires board.WellFormed()
    ensures s.board == board && s.moves == moves && s.prev == prev
    ensures s.hammingPriority == HammingOf(board.cells, board.n) + moves
    ensures s.manhattanPriority == ManhattanOf(board.cells, board.n) + moves
    ensures moves <= s.hammingPriority <= s.manhattanPriority
    ensures s.manhattanPriority == moves <==> board.cells == GoalGrid(board.n)
  {
    SearchNode(board, moves, prev, board.Hamming() + moves, board.Manhattan() + moves)
  }

  /** compareTo(): the sign of the difference of the Manhattan priorities; the Hamming priority plays no part. */
  function CompareTo(a: SearchNode, s: SearchNode): (r: int)
    ensures r == -1 || r == 0 || r == 1
    ensures r < 0 <==> a.manhattanPriority < s.manhattanPriority
    ensures r > 0 <==> a.manhattanPriority > s.manhattanPriority
  {
    if a.manhattanPriority < s.manhattanPriority then -1
    else if a.manhattanPriority > s.manhattanPriority then 1
    else 0
  }

  /** compareTo() is a total preorder, as a priority queue needs: antisymmetric in sign, transitive and total. */
  lemma CompareToIsTotalPreorder(a: SearchNode, b: SearchNode, c: SearchNode)
    ensures CompareTo(a, b) == -CompareTo(b, a)
    ensures CompareTo(a, b) <= 0 && CompareTo(b, c) <= 0 ==> CompareTo(a, c) <= 0
    ensures CompareTo(a, b) <= 0 || CompareTo(b, a) <= 0
    ensures CompareTo(a, a) == 0
  {
  }

  // ---------------------------------------------------------------------
  // The priority queue, as the multiset of its nodes
  // ---------------------------------------------------------------------

  /** m is a node of q that compares at most equal to every node of q. */
  predicate IsMin(m: SearchNode, q: multiset<SearchNode>) {
    m in q && forall x :: x in q ==> CompareTo(m, x) <= 0
  }

  /** Every non-empty queue has a minimum. */
  lemma {:induction false} MinExists(q: multiset<SearchNode>)
    requires |q| > 0
    ensures exists m :: IsMin(m, q)
    decreases |q|
  {
    var x :| x in q;
    var rest := q - multiset{x};
    assert q == rest + multiset{x};
    if |rest| == 0 {
      assert IsMin(x, q);
    } else {
      MinExists(rest);
      var m :| IsMin(m, rest);
      if CompareTo(x, m) <= 0 {
        assert IsMin(x, q);
      } else {
        assert IsMin(m, q);
      }
    }
  }

  /** delMin(): removes one node of least priority; which one among equals is left open. */
  method DelMin(q: multiset<SearchNode>) returns (m: SearchNode, rest: multiset<SearchNode>)
    requires |q| > 0
    ensures IsMin(m, q) && q == rest + multiset{m}
    ensures forall x :: x in rest ==> x in q
  {
    MinExists(q);
    m :| m in q && IsMin(m, q);
    rest := q - multiset{m};
  }

  // ---------------------------------------------------------------------
  // Search trees and solution paths
  // ---------------------------------------------------------------------

  /**
    s belongs to the search tree grown from root over n-by-n boards: following
    prev ends at the node of root with no moves, and every step on the way
    slides one tile into the blank and adds one move.
   */
  ghost predicate Descends(s: SearchNode, root: Board, n: int)
    decreases s
  {
    && s.board.n == n
    && match s.prev
       case None => s.board == root && s.moves == 0
       case Some(p) => s.moves == p.moves + 1 && IsSlide(p.board.cells, s.board.cells, n) && Descends(p, root, n)
  }

  /** A node belongs to the tree of one root only. */
  lemma {:induction false} DescendsFromOneRoot(s: SearchNode, r1: Board, r2: Board, n: int)
    requires Descends(s, r1, n) && Descends(s, r2, n)
    ensures r1 == r2
    decreases s
  {
    match s.prev
    case None =>
    case Some(p) => DescendsFromOneRoot(p, r1, r2, n);
  }

  /** The boards of the nodes from the first move up to s, in the order the solution stack yields them. */
  function Chain(s: SearchNode): (bs: seq<Board>)
    decreases s
  {
    match s.prev
    case None => []
    case Some(p) => Chain(p) + [s.board]
  }

  /** bs is a sequence of boards each of which is one slide away from the one before, the first from start. */
  ghost predicate IsPath(start: Grid, bs: seq<Board>, n: int) {
    forall i :: 0 <= i < |bs| ==> IsSlide(if i == 0 then start else bs[i - 1].cells, bs[i].cells, n)
  }

  /**
    The chain of a node of root's tree is a path of slides from root to the
    node's board, one board per move.
   */
  lemma {:induction false} ChainIsPath(s: SearchNode, root: Board, n: int)
    requires Descends(s, root, n)
    ensures |Chain(s)| == s.moves
    ensures IsPath(root.cells, Chain(s), n)
    ensures Chain(s) == [] ==> s.board == root
    ensures Chain(s) != [] ==> Chain(s)[|Chain(s)| - 1] == s.board
    decreases s
  {
    match s.prev
    case None =>
    case Some(p) =>
      ChainIsPath(p, root, n);
      var c := Chain(p);
      var bs := c + [s.board];
      assert Chain(s) == bs;
      forall i | 0 <= i < |bs|
        ensures IsSlide(if i == 0 then root.cells else bs[i - 1].cells, bs[i].cells, n)
      {
        if i < |c| {
          assert bs[i] == c[i];
          if i == 0 {
            assert IsSlide(root.cells, c[i].cells, n);
          } else {
            assert bs[i - 1] == c[i - 1];
            assert IsSlide(c[i - 1].cells, c[i].cells, n);
          }
        } else if i == 0 {
          assert bs[i] == s.board && p.board == root;
        } else {
          assert bs[i] == s.board && bs[i - 1] == p.board;
        }
      }
      assert IsPath(root.cells, bs, n);
  }

  /**
    The loop at the end of the constructor: follows prev from min and pushes
    each board, so the stack holds the chain of min, the first move on top.
   */
  method ChaseSolution(min: SearchNode) returns (solution: seq<Board>)
    ensures solution == Chain(min)
  {
    var cur := min;
    solution := [];
    while cur.prev.Some?
      invariant Chain(min) == Chain(cur) + solution
      decreases cur
    {
      solution := [cur.board] + solution;
      cur := cur.prev.value;
    }
  }

  // ---------------------------------------------------------------------
  // The boards the search has reached
  // ---------------------------------------------------------------------

  /**
    known is closed under neighbours: every board in it is valid, and every
    neighbour it has cached is in it too.
   */
  ghost predicate Closed(known: set<Board>)
    reads known, set b, o | b in known && o in b.Repr :: o
  {
    forall b {:trigger b.Valid()} :: b in known ==> b.Valid() && forall c :: c in b.neighbors ==> c in known
  }

  /**
    neighbors() of a board the search popped: the board's own neighbour
    sequence, whose grids are the one-slide grids of b, so at least two boards
    of the same size, each one slide away.
   */
  method ExpandBoard(b: Board, ghost known: set<Board>) returns (nbrs: seq<Board>, ghost known': set<Board>)
    requires b in known && Closed(known)
    modifies b
    ensures Closed(known') && known <= known' && fresh(known' - known)
    ensures nbrs == b.neighbors && b.WellFormed()
    ensures old(b.neighborsGen) ==> nbrs == old(b.neighbors)
    ensures CellsOf(nbrs) == NeighborGrids(b.cells, b.n, b.blankRow, b.blankCol)
    ensures forall c :: c in nbrs ==> c in known' && c.WellFormed() && c.n == b.n && IsSlide(b.cells, c.cells, b.n)
    ensures b.n >= 2 ==> |nbrs| >= 2
  {
    nbrs := b.Neighbors();
    known' := known + set c | c in nbrs;
    ClosedAfterChange(b, known, known');
    NeighborsAreSlidesOf(b, nbrs);
  }

  /**
    Changing one board b of a closed set keeps it closed, with new boards
    added, when b stays valid with its neighbours among the boards, the added
    boards have empty caches, and every other board is untouched.
   */
  twostate lemma ClosedAfterChange(b: Board, new known: set<Board>, new known': set<Board>)
    requires old(allocated(known)) && old(Closed(known)) && b in known && known <= known'
    requires b.Valid() && forall c :: c in b.neighbors ==> c in known'
    requires forall x :: x in known' && x !in known ==> x.WellFormed() && x.Unused()
    requires forall x :: x in known && x != b ==> unchanged(x) && (x.twinTiles != null ==> unchanged(x.twinTiles))
    ensures Closed(known')
  {
    forall x | x in known'
      ensures x.Valid() && forall c :: c in x.neighbors ==> c in known'
    {
      if x == b {
      } else if x in known {
        assert old(x.Valid());
      } else {
        assert x.WellFormed() && x.Unused();
      }
    }
  }

  /** The neighbour boards of b: as many as the grid allows, at least two, each one slide away from b. */
  lemma NeighborsAreSlidesOf(b: Board, nbrs: seq<Board>)
    requires b.WellFormed() && CellsOf(nbrs) == NeighborGrids(b.cells, b.n, b.blankRow, b.blankCol)
    requires forall c :: c in nbrs ==> c.WellFormed()
    ensures forall c :: c in nbrs ==> c.n == b.n && IsSlide(b.cells, c.cells, b.n)
    ensures b.n >= 2 ==> |nbrs| >= 2
  {
    forall c | c in nbrs
      ensures c.n == b.n && IsSlide(b.cells, c.cells, b.n)
    {
      var m :| 0 <= m < |nbrs| && nbrs[m] == c;
      assert CellsOf(nbrs)[m] == c.cells;
      NeighborsAreSlides(b.cells, b.n, b.blankRow, b.blankCol, c.cells);
    }
    if b.n >= 2 {
      NeighborCount(b.cells, b.n, b.blankRow, b.blankCol);
    }
  }

  /** initial.twin(), with the twin added to the boards reached. */
  method TwinOf(initial: Board, k: int, ghost known: set<Board>) returns (t: Board, ghost known': set<Board>)
    requires initial in known && Closed(known)
    requires initial.n >= 2 && 0 <= k <= initial.n * initial.n - 2
    modifies initial
    ensures Closed(known') && known' == known + {t} && initial.Valid() && initial.WellFormed()
    ensures 0 <= initial.twinIndex <= initial.n * initial.n - 2
    ensures fresh(t) && t.n == initial.n && t.cells == TwinGrid(initial.cells, initial.n, initial.twinIndex)
    ensures old(initial.twinTiles) == null ==> initial.twinIndex == k
  {
    t := initial.Twin(k);
    known' := known + {t};
    ClosedAfterChange(initial, known, known');
  }

  // ---------------------------------------------------------------------
  // The goal board
  // ---------------------------------------------------------------------

  /** makeGoal(): fills the rows with 1, 2, 3, ... and puts the blank in the last cell. */
  method MakeGoal(size: nat) returns (goal: Board)
    requires size >= 1
    ensures fresh(goal) && goal.Valid() && goal.Unused()
    ensures goal.n == size && goal.cells == GoalGrid(size)
  {
    var goalTile := new int[size, size];
    var gt := 1;
    for i := 0 to size
      invariant gt == i * size + 1
      invariant forall r, c :: 0 <= r < i && 0 <= c < size ==> goalTile[r, c] == r * size + c + 1
    {
      for j := 0 to size
        invariant gt == i * size + j + 1
        invariant forall r, c :: 0 <= r < i && 0 <= c < size ==> goalTile[r, c] == r * size + c + 1
        invariant forall c :: 0 <= c < j ==> goalTile[i, c] == i * size + c + 1
      {
        goalTile[i, j] := gt;
        gt := gt + 1;
      }
    }
    goalTile[size - 1, size - 1] := 0;
    ghost var g := Contents(goalTile);
    ghost var goalGrid := GoalGrid(size);
    forall r | 0 <= r < size
      ensures g[r] == goalGrid[r]
    {
      assert forall c :: 0 <= c < size ==> g[r][c] == GoalLabel(size, r, c);
    }
    assert g == goalGrid;
    GoalGridValid(size);
    goal := new Board(goalTile);
  }

  // ---------------------------------------------------------------------
  // The search
  // ---------------------------------------------------------------------

  /** Every node of q is in root's tree and its board has been reached. */
  ghost predicate InTree(q: multiset<SearchNode>, root: Board, n: int, known: set<Board>) {
    forall x :: x in q ==> x.board in known && Descends(x, root, n)
  }

  /**
    The state of the two searches between rounds: alternate names the queue
    min came from, the other queue is not empty, every node of pq is in the
    initial board's tree and every node of pqTwin in the twin's, and min is in
    the tree of the root alternate names.
   */
  ghost predicate Frontier(alternate: int, min: SearchNode, pq: multiset<SearchNode>, pqTwin: multiset<SearchNode>,
                           initial: Board, twin: Board, n: int, known: set<Board>) {
    && (alternate == 0 || alternate == 1)
    && (alternate == 0 ==> |pqTwin| >= 1)
    && (alternate == 1 ==> |pq| >= 1)
    && InTree(pq, initial, n, known) && InTree(pqTwin, twin, n, known)
    && min.board in known && Descends(min, if alternate == 0 then initial else twin, n)
  }

  /**
    The nodes the search popped, in order: first the initial board's root,
    then the twin's root, then alternately one of the initial board's tree
    and one of the twin's, and none of them but the last on the goal board.
   */
  ghost predicate Popped(popped: seq<SearchNode>, initial: Board, twin: Board, n: nat) {
    && |popped| >= 1
    && popped[0].board == initial && popped[0].prev.None?
    && (|popped| >= 2 ==> popped[1].board == twin && popped[1].prev.None?)
    && (forall i :: 0 <= i < |popped| - 1 ==> popped[i].board.cells != GoalGrid(n))
    && (forall i :: 0 <= i < |popped| ==> Descends(popped[i], if i % 2 == 0 then initial else twin, n))
  }

  /** The pops so far end with min, and alternate names the tree of the last one by its position. */
  ghost predicate Trace(popped: seq<SearchNode>, min: SearchNode, alternate: int, initial: Board, twin: Board, n: nat) {
    Popped(popped, initial, twin, n) && popped[|popped| - 1] == min && alternate == (|popped| - 1) % 2
  }

  /** Popping m after min, which was not the goal, from the other tree extends the trace. */
  lemma TraceExtend(popped: seq<SearchNode>, min: SearchNode, alternate: int, m: SearchNode, alternate': int,
                    initial: Board, twin: Board, n: nat)
    requires Trace(popped, min, alternate, initial, twin, n) && min.board.cells != GoalGrid(n)
    requires alternate' == 1 - alternate && Descends(m, if alternate' == 0 then initial else twin, n)
    requires |popped| == 1 ==> m.board == twin && m.prev.None?
    ensures Trace(popped + [m], m, alternate', initial, twin, n)
  {
    PoppedExtend(popped, m, initial, twin, n);
  }

  /** A pop after a node that was not the goal, from the tree whose turn it is, extends the pops. */
  lemma PoppedExtend(popped: seq<SearchNode>, m: SearchNode, initial: Board, twin: Board, n: nat)
    requires Popped(popped, initial, twin, n) && popped[|popped| - 1].board.cells != GoalGrid(n)
    requires Descends(m, if |popped| % 2 == 0 then initial else twin, n)
    requires |popped| == 1 ==> m.board == twin && m.prev.None?
    ensures Popped(popped + [m], initial, twin, n)
  {
    var p := popped + [m];
    forall i | 0 <= i < |p| - 1
      ensures p[i].board.cells != GoalGrid(n)
    {
      assert p[i] == popped[i];
    }
    forall i | 0 <= i < |p|
      ensures Descends(p[i], if i % 2 == 0 then initial else twin, n)
    {
      if i < |popped| {
        assert p[i] == popped[i];
      }
    }
  }

  /**
    Steps 1 to 3 of the constructor. One queue starts with the node of the
    initial board, the other with the node of the twin; the node of the
    initial board is popped first. Then, until the popped board equals the
    goal, its neighbours go into the queue it came from, the queues are
    switched and the next node is popped from the other one. The two
    searches never mix: every node of pq is in the initial board's tree,
    every node of pqTwin in the twin's. fuel bounds the number of
    expansions; reached says whether the goal was popped. An initial board
    that is already the goal is popped at once; a twin that is the goal is
    popped in the first round when the initial board is not.
   */
  method Search(initial: Board, twin: Board, goal: Board, fuel: nat, ghost known: set<Board>)
    returns (reached: bool, min: SearchNode, alternate: int, ghost known': set<Board>, ghost popped: seq<SearchNode>)
    requires initial in known && twin in known && Closed(known)
    requires initial.n >= 2 && twin.n == initial.n
    requires goal.WellFormed() && goal.n == initial.n && goal.cells == GoalGrid(initial.n)
    modifies known
    ensures Closed(known') && known <= known' && fresh(known' - known)
    ensures alternate == 0 || alternate == 1
    ensures Descends(min, if alternate == 0 then initial else twin, initial.n)
    ensures reached <==> min.board.cells == GoalGrid(initial.n)
    ensures initial.WellFormed() && twin.WellFormed()
    ensures initial.cells == GoalGrid(initial.n) ==> reached && alternate == 0 && min.board == initial && min.prev.None?
    ensures twin.cells == GoalGrid(initial.n) && initial.cells != GoalGrid(initial.n) && fuel >= 1 ==>
              reached && alternate == 1 && min.board == twin && min.prev.None?
    ensures Trace(popped, min, alternate, initial, twin, initial.n)
    ensures |popped| <= fuel + 1 && (!reached ==> |popped| == fuel + 1)
  {
    var min0, pq, pqTwin, reached0 := Start(initial, twin, goal, known);
    reached, min, alternate, known', popped := Explore(initial, twin, goal, fuel, min0, pq, pqTwin, reached0, known);
    PoppedGoalCases(popped, initial, twin, initial.n, fuel, reached);
  }

  /**
    The loop of step 3, from the state Start leaves: at most fuel rounds, until
    the goal is popped. popped lists the nodes popped, min0 first and min last;
    the search stops at the first of them on the goal, and without reaching it
    only after fuel rounds.
   */
  method Explore(initial: Board, twin: Board, goal: Board, fuel: nat,
                 min0: SearchNode, pq0: multiset<SearchNode>, pqTwin0: multiset<SearchNode>, reached0: bool,
                 ghost known: set<Board>)
    returns (reached: bool, min: SearchNode, alternate: int, ghost known': set<Board>, ghost popped: seq<SearchNode>)
    requires initial in known && twin in known && Closed(known)
    requires initial.n >= 2 && twin.n == initial.n && initial.WellFormed() && twin.WellFormed()
    requires goal.WellFormed() && goal.n == initial.n && goal.cells == GoalGrid(initial.n)
    requires pq0 == multiset{} && pqTwin0 == multiset{NewNode(twin, 0, None)}
    requires min0 == NewNode(initial, 0, None)
    requires reached0 <==> initial.cells == GoalGrid(initial.n)
    modifies known
    ensures Closed(known') && known <= known' && fresh(known' - known)
    ensures reached <==> min.board.cells == GoalGrid(initial.n)
    ensures Trace(popped, min, alternate, initial, twin, initial.n)
    ensures |popped| <= fuel + 1 && (!reached ==> |popped| == fuel + 1)
  {
    var n := initial.n;
    var pq, pqTwin := pq0, pqTwin0;
    min, reached := min0, reached0;
    alternate := 0;
    known' := known;
    var steps: nat := fuel;
    popped := [min];
    while !reached && steps > 0
      invariant Closed(known') && known <= known' && fresh(known' - known)
      invariant Frontier(alternate, min, pq, pqTwin, initial, twin, n, known')
      invariant reached <==> min.board.cells == GoalGrid(n)
      invariant Trace(popped, min, alternate, initial, twin, n) && |popped| == fuel - steps + 1
      invariant |popped| == 1 ==> pqTwin == multiset{NewNode(twin, 0, None)}
      decreases steps
    {
      alternate, min, pq, pqTwin, reached, known', popped := TracedRound(min, alternate, pq, pqTwin, goal, initial, twin, n, known', popped);
      steps := steps - 1;
    }
  }

  /**
    When the initial board is the goal, the search stops at its first pop;
    when only the twin is, it stops at its second, the twin's root, provided
    there was fuel for one round.
   */
  lemma PoppedGoalCases(popped: seq<SearchNode>, initial: Board, twin: Board, n: nat, fuel: nat, reached: bool)
    requires Popped(popped, initial, twin, n)
    requires reached <==> popped[|popped| - 1].board.cells == GoalGrid(n)
    requires |popped| <= fuel + 1 && (!reached ==> |popped| == fuel + 1)
    ensures initial.cells == GoalGrid(n) ==> reached && |popped| == 1
    ensures twin.cells == GoalGrid(n) && initial.cells != GoalGrid(n) && fuel >= 1 ==> reached && |popped| == 2
  {
    if initial.cells == GoalGrid(n) {
      assert popped[0].board.cells == GoalGrid(n);
    }
    if twin.cells == GoalGrid(n) && |popped| >= 2 {
      assert popped[1].board.cells == GoalGrid(n);
    }
  }

  /**
    One pass of the loop body: the neighbours of min's board go into the
    queue min came from, then the queues are switched and a minimum of the
    other queue is removed from it and compared with the goal.
   */
  method Round(min: SearchNode, alternate: int, pq: multiset<SearchNode>, pqTwin: multiset<SearchNode>, goal: Board,
               ghost initial: Board, ghost twin: Board, ghost n: int, ghost known: set<Board>)
    returns (alternate': int, min': SearchNode, pq': multiset<SearchNode>, pqTwin': multiset<SearchNode>,
             reached: bool, nbrs: seq<Board>, ghost known': set<Board>)
    requires Closed(known) && n >= 2
    requires goal.WellFormed() && goal.n == n && goal.cells == GoalGrid(n)
    requires Frontier(alternate, min, pq, pqTwin, initial, twin, n, known)
    modifies min.board
    ensures Closed(known') && known <= known' && fresh(known' - known)
    ensures Frontier(alternate', min', pq', pqTwin', initial, twin, n, known')
    ensures alternate' == 1 - alternate
    ensures reached <==> min'.board.cells == GoalGrid(n)
    ensures nbrs == min.board.neighbors && forall c :: c in nbrs ==> c.WellFormed()
    ensures alternate == 0 ==> pq' == pq + Children(min, nbrs) && IsMin(min', pqTwin) && pqTwin == pqTwin' + multiset{min'}
    ensures alternate == 1 ==> pqTwin' == pqTwin + Children(min, nbrs) && IsMin(min', pq) && pq == pq' + multiset{min'}
  {
    var pq1, pqTwin1;
    nbrs, pq1, pqTwin1, known' := ExpandMin(min, alternate, pq, pqTwin, initial, twin, n, known);
    alternate', min', pq', pqTwin', reached := PopNext(alternate, pq1, pqTwin1, goal, initial, twin, n, known');
  }

  /** A Round after a pop that was not the goal, with the node it pops appended to the pops so far. */
  method TracedRound(min: SearchNode, alternate: int, pq: multiset<SearchNode>, pqTwin: multiset<SearchNode>, goal: Board,
                     ghost initial: Board, ghost twin: Board, ghost n: nat, ghost known: set<Board>, ghost popped: seq<SearchNode>)
    returns (alternate': int, min': SearchNode, pq': multiset<SearchNode>, pqTwin': multiset<SearchNode>,
             reached: bool, ghost known': set<Board>, ghost popped': seq<SearchNode>)
    requires Closed(known) && n >= 2
    requires goal.WellFormed() && goal.n == n && goal.cells == GoalGrid(n)
    requires Frontier(alternate, min, pq, pqTwin, initial, twin, n, known)
    requires Trace(popped, min, alternate, initial, twin, n) && min.board.cells != GoalGrid(n)
    requires twin.WellFormed() && (|popped| == 1 ==> pqTwin == multiset{NewNode(twin, 0, None)})
    modifies min.board
    ensures Closed(known') && known <= known' && fresh(known' - known)
    ensures Frontier(alternate', min', pq', pqTwin', initial, twin, n, known')
    ensures reached <==> min'.board.cells == GoalGrid(n)
    ensures Trace(popped', min', alternate', initial, twin, n) && popped' == popped + [min']
  {
    var nbrs;
    alternate', min', pq', pqTwin', reached, nbrs, known' := Round(min, alternate, pq, pqTwin, goal, initial, twin, n, known);
    TraceExtend(popped, min, alternate, min', alternate', initial, twin, n);
    popped' := popped + [min'];
  }

  /**
    Steps 1 and 2 and the first test of the loop condition: one node per
    queue, and the initial board's node popped straight away and compared
    with the goal.
   */
  method Start(initial: Board, twin: Board, goal: Board, ghost known: set<Board>)
    returns (min: SearchNode, pq: multiset<SearchNode>, pqTwin: multiset<SearchNode>, reached: bool)
    requires initial in known && twin in known && Closed(known)
    requires twin.n == initial.n
    requires goal.WellFormed() && goal.n == initial.n && goal.cells == GoalGrid(initial.n)
    ensures Closed(known) && initial.WellFormed() && twin.WellFormed()
    ensures pq == multiset{} && pqTwin == multiset{NewNode(twin, 0, None)}
    ensures min == NewNode(initial, 0, None)
    ensures reached <==> initial.cells == GoalGrid(initial.n)
  {
    assert initial.Valid() && twin.Valid();
    var s := NewNode(initial, 0, None);
    pq := multiset{s};
    var sTwin := NewNode(twin, 0, None);
    pqTwin := multiset{sTwin};
    min, pq := DelMin(pq);
    reached := min.board.Equals(goal);
    ClosedFramed(known);
  }

  /**
    The expansion step of one round: each neighbour of min's board becomes a
    node, one move further with min as predecessor, in the queue min came
    from, which therefore gains at least two nodes.
   */
  method ExpandMin(min: SearchNode, alternate: int, pq: multiset<SearchNode>, pqTwin: multiset<SearchNode>,
                   ghost initial: Board, ghost twin: Board, ghost n: int, ghost known: set<Board>)
    returns (nbrs: seq<Board>, pq': multiset<SearchNode>, pqTwin': multiset<SearchNode>, ghost known': set<Board>)
    requires Closed(known) && n >= 2 && (alternate == 0 || alternate == 1)
    requires min.board in known && Descends(min, if alternate == 0 then initial else twin, n)
    requires InTree(pq, initial, n, known) && InTree(pqTwin, twin, n, known)
    modifies min.board
    ensures Closed(known') && known <= known' && fresh(known' - known)
    ensures InTree(pq', initial, n, known') && InTree(pqTwin', twin, n, known')
    ensures nbrs == min.board.neighbors && |nbrs| >= 2 && forall c :: c in nbrs ==> c.WellFormed()
    ensures alternate == 0 ==> pqTwin' == pqTwin && pq' == pq + Children(min, nbrs)
    ensures alternate == 1 ==> pq' == pq && pqTwin' == pqTwin + Children(min, nbrs)
  {
    nbrs, known' := ExpandNode(min, if alternate == 0 then initial else twin, n, known);
    label expanded:
    pq', pqTwin' := InsertNeighbors(min, nbrs, alternate, pq, pqTwin);
    ClosedFramed@expanded(known');
  }

  /** min.board.neighbors(), with the nodes they become shown to be in min's tree. */
  method ExpandNode(min: SearchNode, ghost root: Board, ghost n: int, ghost known: set<Board>)
    returns (nbrs: seq<Board>, ghost known': set<Board>)
    requires Closed(known) && n >= 2
    requires min.board in known && Descends(min, root, n)
    modifies min.board
    ensures Closed(known') && known <= known' && fresh(known' - known)
    ensures nbrs == min.board.neighbors && |nbrs| >= 2 && forall c :: c in nbrs ==> c.WellFormed()
    ensures InTree(Children(min, nbrs), root, n, known')
  {
    nbrs, known' := ExpandBoard(min.board, known);
    ChildrenInTree(min, nbrs, root, n, known');
  }

  /**
    The second half of one round, then the test of the loop condition:
    switches queues, pops the next node and compares its board with the goal.
   */
  method PopNext(alternate: int, pq: multiset<SearchNode>, pqTwin: multiset<SearchNode>, goal: Board,
                 ghost initial: Board, ghost twin: Board, ghost n: int, ghost known: set<Board>)
    returns (alternate': int, min: SearchNode, pq': multiset<SearchNode>, pqTwin': multiset<SearchNode>, reached: bool)
    requires Closed(known) && (alternate == 0 || alternate == 1)
    requires goal.WellFormed() && goal.n == n && goal.cells == GoalGrid(n)
    requires |pq| >= 1 && (alternate == 0 ==> |pqTwin| >= 1)
    requires InTree(pq, initial, n, known) && InTree(pqTwin, twin, n, known)
    ensures Closed(known)
    ensures InTree(pq', initial, n, known) && InTree(pqTwin', twin, n, known)
    ensures alternate' == 1 - alternate
    ensures alternate' == 0 ==> pqTwin' == pqTwin
    ensures alternate' == 1 ==> pq' == pq
    ensures min.board in known && Descends(min, if alternate' == 0 then initial else twin, n)
    ensures reached <==> min.board.cells == GoalGrid(n)
    ensures alternate' == 0 ==> min in pq && IsMin(min, pq) && pq == pq' + multiset{min}
    ensures alternate' == 1 ==> min in pqTwin && IsMin(min, pqTwin) && pqTwin == pqTwin' + multiset{min}
  {
    alternate', min, pq', pqTwin' := SwitchAndPop(alternate, pq, pqTwin);
    assert min.board.Valid();
    reached := min.board.Equals(goal);
    ClosedFramed(known);
  }

  /**
    Switches to the other queue and pops its minimum. The emptiness test looks
    at pq whichever queue is popped; the search never lets pq run empty, so
    the branch that would set min to null is never taken.
   */
  method SwitchAndPop(alternate: int, pq: multiset<SearchNode>, pqTwin: multiset<SearchNode>)
    returns (alternate': int, min: SearchNode, pq': multiset<SearchNode>, pqTwin': multiset<SearchNode>)
    requires alternate == 0 || alternate == 1
    requires |pq| >= 1 && (alternate == 0 ==> |pqTwin| >= 1)
    ensures alternate' == 1 - alternate
    ensures alternate' == 0 ==> IsMin(min, pq) && pq == pq' + multiset{min} && pqTwin' == pqTwin
    ensures alternate' == 1 ==> IsMin(min, pqTwin) && pqTwin == pqTwin' + multiset{min} && pq' == pq
    ensures forall x :: x in pq' ==> x in pq
    ensures forall x :: x in pqTwin' ==> x in pqTwin
  {
    pq', pqTwin' := pq, pqTwin;
    if alternate == 0 {
      alternate' := 1;
    } else {
      alternate' := 0;
    }
    if alternate' == 0 {
      if |pq| != 0 {
        min, pq' := DelMin(pq);
      } else {
        assert false;
      }
    } else {
      if |pq| != 0 {
        min, pqTwin' := DelMin(pqTwin);
      } else {
        assert false;
      }
    }
  }

  /** The children of a node of root's tree are in that tree too, on boards already reached. */
  lemma ChildrenInTree(min: SearchNode, nbrs: seq<Board>, root: Board, n: int, known: set<Board>)
    requires forall i :: 0 <= i < |nbrs| ==> nbrs[i].WellFormed()
    requires Descends(min, root, n)
    requires forall c :: c in nbrs ==> c in known && c.n == n && IsSlide(min.board.cells, c.cells, n)
    ensures InTree(Children(min, nbrs), root, n, known)
  {
    ChildrenAreNewNodes(min, nbrs);
    forall x | x in Children(min, nbrs)
      ensures x.board in known && Descends(x, root, n)
    {
      ChildDescends(x, min, root, n);
    }
  }

  /** A child of a node of root's tree, one slide and one move further, is in the tree too. */
  lemma ChildDescends(x: SearchNode, min: SearchNode, root: Board, n: int)
    requires Descends(min, root, n)
    requires x.prev == Some(min) && x.moves == min.moves + 1
    requires x.board.n == n && IsSlide(min.board.cells, x.board.cells, n)
    ensures Descends(x, root, n)
  {
  }

  /** Boards whose fields and cached twin tiles did not change stay closed. */
  twostate lemma ClosedFramed(new known: set<Board>)
    requires old(allocated(known)) && old(Closed(known))
    requires forall x :: x in known ==> unchanged(x) && (x.twinTiles != null ==> unchanged(x.twinTiles))
    ensures Closed(known)
  {
    forall x | x in known
      ensures x.Valid()
    {
      assert old(x.Valid());
    }
  }

  /** The loop over min.board.neighbors(): a node per neighbour, one more move than min, into the queue alternate picks. */
  method InsertNeighbors(min: SearchNode, nbrs: seq<Board>, alternate: int,
                         pq: multiset<SearchNode>, pqTwin: multiset<SearchNode>)
    returns (pq': multiset<SearchNode>, pqTwin': multiset<SearchNode>)
    requires forall c :: c in nbrs ==> c.WellFormed()
    ensures alternate == 0 ==> pqTwin' == pqTwin && pq' == pq + Children(min, nbrs)
    ensures alternate != 0 ==> pq' == pq && pqTwin' == pqTwin + Children(min, nbrs)
  {
    pq', pqTwin' := pq, pqTwin;
    ghost var cs := ChildNodes(min, nbrs);
    ChildNodesAt(min, nbrs);
    for i := 0 to |nbrs|
      invariant alternate == 0 ==> pqTwin' == pqTwin && pq' == pq + multiset(cs[..i])
      invariant alternate != 0 ==> pq' == pq && pqTwin' == pqTwin + multiset(cs[..i])
    {
      var sneighbor := NewNode(nbrs[i], min.moves + 1, Some(min));
      assert cs[..i + 1] == cs[..i] + [sneighbor];
      if alternate == 0 {
        pq' := pq' + multiset{sneighbor};
      } else {
        pqTwin' := pqTwin' + multiset{sneighbor};
      }
    }
    assert cs[..|nbrs|] == cs;
  }

  /** x is the node for one of the neighbours of min's board, one move further, with min as its predecessor. */
  predicate IsChild(x: SearchNode, min: SearchNode, nbrs: seq<Board>) {
    x.board in nbrs && x.moves == min.moves + 1 && x.prev == Some(min)
  }

  /** The node expanding min makes for each entry of nbrs, in order. */
  function ChildNodes(min: SearchNode, nbrs: seq<Board>): (r: seq<SearchNode>)
    requires forall i :: 0 <= i < |nbrs| ==> nbrs[i].WellFormed()
    ensures |r| == |nbrs|
  {
    seq(|nbrs|, i requires 0 <= i < |nbrs| && nbrs[i].WellFormed() => NewNode(nbrs[i], min.moves + 1, Some(min)))
  }

  /** Entry i of the child nodes is the new node of neighbour i, one move further, with min as predecessor. */
  lemma ChildNodesAt(min: SearchNode, nbrs: seq<Board>)
    requires forall i :: 0 <= i < |nbrs| ==> nbrs[i].WellFormed()
    ensures forall i :: 0 <= i < |nbrs| ==> ChildNodes(min, nbrs)[i] == NewNode(nbrs[i], min.moves + 1, Some(min))
  {
  }

  /** The nodes an expansion of min adds to a queue: one per neighbour. */
  function Children(min: SearchNode, nbrs: seq<Board>): (c: multiset<SearchNode>)
    requires forall i :: 0 <= i < |nbrs| ==> nbrs[i].WellFormed()
    ensures |c| == |nbrs|
  {
    multiset(ChildNodes(min, nbrs))
  }

  /**
    Every child of min is the new node of one of min's neighbours: one move
    further than min, with min as predecessor and the priorities a new node
    gets.
   */
  lemma ChildrenAreNewNodes(min: SearchNode, nbrs: seq<Board>)
    requires forall i :: 0 <= i < |nbrs| ==> nbrs[i].WellFormed()
    ensures forall x :: x in Children(min, nbrs) ==> IsChild(x, min, nbrs) && x == NewNode(x.board, x.moves, x.prev)
  {
    var cs := ChildNodes(min, nbrs);
    ChildNodesAt(min, nbrs);
    forall x | x in Children(min, nbrs)
      ensures IsChild(x, min, nbrs) && x == NewNode(x.board, x.moves, x.prev)
    {
      assert x in cs;
      var i :| 0 <= i < |cs| && cs[i] == x;
    }
  }

  /** Every neighbour of min gets its node among the children. */
  lemma EveryNeighborQueued(min: SearchNode, nbrs: seq<Board>)
    requires forall i :: 0 <= i < |nbrs| ==> nbrs[i].WellFormed()
    ensures forall b :: b in nbrs ==> NewNode(b, min.moves + 1, Some(min)) in Children(min, nbrs)
  {
    var cs := ChildNodes(min, nbrs);
    ChildNodesAt(min, nbrs);
    forall b | b in nbrs
      ensures NewNode(b, min.moves + 1, Some(min)) in Children(min, nbrs)
    {
      var i :| 0 <= i < |nbrs| && nbrs[i] == b;
      assert cs[i] == NewNode(b, min.moves + 1, Some(min));
      assert cs[i] in multiset(cs);
    }
  }

  /**
    The part of the constructor that changes boards: it builds the goal and
    the twin and runs the two searches until one pops its goal.
    ti is the cell the twin exchanged.
   */
  method SolveBoth(initial: Board, k: int, fuel: nat, ghost known: set<Board>)
    returns (goal: Board, twin: Board, ghost ti: int, reached: bool, min: SearchNode, alternate: int,
             ghost known': set<Board>, ghost popped: seq<SearchNode>)
    requires initial in known && Closed(known)
    requires initial.n >= 2 && 0 <= k <= initial.n * initial.n - 2
    modifies known
    ensures Closed(known') && known <= known'
    ensures goal.n == initial.n && goal.cells == GoalGrid(initial.n)
    ensures initial.WellFormed() && twin != initial && twin.n == initial.n && 0 <= ti <= initial.n * initial.n - 2
    ensures twin.cells == TwinGrid(initial.cells, initial.n, ti)
    ensures old(initial.twinTiles) == null ==> ti == k
    ensures alternate == 0 || alternate == 1
    ensures Descends(min, if alternate == 0 then initial else twin, initial.n)
    ensures reached <==> min.board.cells == GoalGrid(initial.n)
    ensures initial.cells == GoalGrid(initial.n) ==> reached && alternate == 0 && min.board == initial && min.prev.None?
    ensures twin.cells == GoalGrid(initial.n) && initial.cells != GoalGrid(initial.n) && fuel >= 1 ==>
              reached && alternate == 1 && min.board == twin && min.prev.None?
    ensures Trace(popped, min, alternate, initial, twin, initial.n)
    ensures |popped| <= fuel + 1 && (!reached ==> |popped| == fuel + 1)
  {
    assert initial.Valid();
    goal := MakeGoal(initial.Dimension());
    ghost var known1;
    twin, known1 := TwinOf(initial, k, known);
    ti := initial.twinIndex;
    reached, min, alternate, known', popped := Search(initial, twin, goal, fuel, known1);
  }

  // ---------------------------------------------------------------------
  // The solver
  // ---------------------------------------------------------------------

  /** The board a path of slides from start ends on: the last board of bs, or start itself when bs is empty. */
  ghost function PathEnd(start: Grid, bs: seq<Board>): Grid {
    if bs == [] then start else bs[|bs| - 1].cells
  }

  /**
    A solver: the goal board, whether the initial board is solvable, the
    number of moves and the solution, all fixed by the constructor. completed
    says whether the search popped the goal within its fuel.
   */
  class Solver {
    const goal: Board
    const isSolvableBool: bool
    const movesSolution: int
    const solution: seq<Board>
    const completed: bool
    /** The board the solver was built for, its twin, the cell the twin exchanged, and the node whose chain is the solution. */
    ghost const initial: Board
    ghost const twin: Board
    ghost const twinIndex: int
    ghost const terminal: SearchNode
    /** The nodes the two searches popped, alternately, ending with terminal. */
    ghost const popped: seq<SearchNode>

    /** The facts the constructor establishes: one search won, and the solution is its path. */
    ghost predicate Valid() {
      && initial.n >= 2 && initial.WellFormed()
      && goal.n == initial.n && goal.cells == GoalGrid(initial.n)
      && twin != initial && twin.n == initial.n
      && 0 <= twinIndex <= initial.n * initial.n - 2
      && twin.cells == TwinGrid(initial.cells, initial.n, twinIndex)
      && (isSolvableBool <==> Descends(terminal, initial, initial.n))
      && Descends(terminal, if isSolvableBool then initial else twin, initial.n)
      && (completed <==> terminal.board.cells == GoalGrid(initial.n))
      && solution == Chain(terminal) && movesSolution == |solution|
      && Trace(popped, terminal, if isSolvableBool then 0 else 1, initial, twin, initial.n)
    }

    /**
      Solver(initial): builds the goal board and the twin, runs the two
      searches, and reads the answer off the node that reached the goal: the
      initial board is solvable when that node is in its tree, and the
      solution is the chain of boards that led to it. k is the cell the twin
      exchanges; fuel bounds the search.
     */
    constructor (initial: Board, k: int, fuel: nat, ghost known: set<Board>)
      requires initial in known && Closed(known)
      requires initial.n >= 2 && 0 <= k <= initial.n * initial.n - 2
      modifies known
      ensures Valid() && this.initial == initial && initial.Valid()
      ensures old(initial.twinTiles) == null ==> twinIndex == k
      ensures movesSolution == terminal.moves
      ensures |popped| <= fuel + 1 && (!completed ==> |popped| == fuel + 1)
      ensures IsPath((if isSolvableBool then initial else twin).cells, solution, initial.n)
      ensures completed ==> PathEnd((if isSolvableBool then initial else twin).cells, solution) == GoalGrid(initial.n)
      ensures initial.cells == GoalGrid(initial.n) ==> completed && isSolvableBool && solution == [] && movesSolution == 0
      ensures twin.cells == GoalGrid(initial.n) && initial.cells != GoalGrid(initial.n) && fuel >= 1 ==>
                completed && !isSolvableBool && solution == [] && movesSolution == 0
    {
      var g, t, reached, min, alternate;
      ghost var ti, known', ps;
      g, t, ti, reached, min, alternate, known', ps := SolveBoth(initial, k, fuel, known);
      isSolvableBool := alternate == 0;
      var stack := ChaseSolution(min);
      solution := stack;
      movesSolution := |stack|;
      goal := g;
      completed := reached;
      this.initial := initial;
      twin := t;
      twinIndex := ti;
      terminal := min;
      popped := ps;
      ChainIsPath(min, if alternate == 0 then initial else t, initial.n);
      if alternate != 0 && Descends(min, initial, initial.n) {
        DescendsFromOneRoot(min, initial, t, initial.n);
      }
    }

    /** isSolvable(): true exactly when the goal was reached from the initial board rather than from its twin. */
    function IsSolvable(): (r: bool)
      requires Valid()
      ensures r <==> Descends(terminal, initial, initial.n)
      ensures !r ==> Descends(terminal, twin, initial.n)
      ensures r <==> (|popped| - 1) % 2 == 0
    {
      isSolvableBool
    }

    /** moves(): the length of the solution, which is the number of moves of the node that reached the goal. */
    function Moves(): (r: int)
      requires Valid()
      ensures r == |Solution()| && r == terminal.moves
    {
      ChainIsPath(terminal, if isSolvableBool then initial else twin, initial.n);
      movesSolution
    }

    /**
      solution(): a path of slides from the board whose search won (the
      initial board or its twin, which is not itself included) that ends on
      the goal when the search completed.
     */
    function Solution(): (r: seq<Board>)
      requires Valid()
      ensures IsPath((if isSolvableBool then initial else twin).cells, r, initial.n)
      ensures completed ==> PathEnd((if isSolvableBool then initial else twin).cells, r) == GoalGrid(initial.n)
    {
      ChainIsPath(terminal, if isSolvableBool then initial else twin, initial.n);
      solution
    }

    /** The constructor's null check: a missing board is an IllegalArgumentException, here None. */
    static method Create(initial: Board?, k: int, fuel: nat, ghost known: set<Board>) returns (r: Option<Solver>)
      requires initial != null ==> initial in known && Closed(known)
      requires initial != null ==> initial.n >= 2 && 0 <= k <= initial.n * initial.n - 2
      modifies known
      ensures r.None? <==> initial == null
      ensures r.Some? ==> fresh(r.value) && r.value.Valid() && r.value.initial == initial && initial.Valid()
      ensures r.Some? ==> r.value.movesSolution == r.value.terminal.moves
      ensures r.Some? ==> |r.value.popped| <= fuel + 1 && (!r.value.completed ==> |r.value.popped| == fuel + 1)
      ensures r.Some? && old(initial.twinTiles) == null ==> r.value.twinIndex == k
      ensures r.Some? ==> IsPath((if r.value.isSolvableBool then initial else r.value.twin).cells, r.value.solution, initial.n)
      ensures r.Some? && r.value.completed ==>
                PathEnd((if r.value.isSolvableBool then initial else r.value.twin).cells, r.value.solution) == GoalGrid(initial.n)
      ensures r.Some? && initial.cells == GoalGrid(initial.n) ==>
                r.value.completed && r.value.isSolvableBool && r.value.solution == [] && r.value.movesSolution == 0
      ensures r.Some? && r.value.twin.cells == GoalGrid(initial.n) && initial.cells != GoalGrid(initial.n) && fuel >= 1 ==>
                r.value.completed && !r.value.isSolvableBool && r.value.solution == [] && r.value.movesSolution == 0
    {
      if initial == null {
        return None;
      }
      var s := new Solver(initial, k, fuel, known);
      return Some(s);
    }
  }
}
